=== FILE: README.md ===
# Video frame processor: per-file pipeline and transform step

A Dafny model of the processing core of a video frame-extraction service.
A queue message names an uploader's email and a list of uploaded files. For
each file whose upload succeeded, the service:

1. downloads the video from object storage into `/tmp`;
2. runs ffmpeg to extract numbered JPEG frames into a frames directory;
3. packs that directory into a ZIP archive;
4. uploads the archive next to the video;
5. emails the uploader, either with the archive attached or with a failure
   notice.

The model covers two pieces of code:

- `ProcessFileUseCase.process` and `sendEmailNotification` model the batch,
  the upload-status gate, key and path derivation, the
  fetch → transform → upload chain, and its `onErrorResume` compensation.
- `FileUseCase.processFile` and `zipDirectory` model base name, frames
  directory and archive path derivation. They also cover the ffmpeg argument
  vector built by `split(" ")`, the exit-code gate, and the archive's entry
  list. `ProcessFileUseCase` holds an identical private copy of these two
  methods (`ProcessFileUseCase.java:64-104`), and it is modelled once.

Every external call (storage, directory creation, process start and exit,
file walking and reading, mail) becomes an outcome parameter. A file's run is
therefore a pure function of the message and those outcomes. It yields:

- the trace of effects it issues (`Fetch`, `MakeDirs`, `Exec`, `Zip`,
  `Upload`, `Email`);
- how its reactive chain ends (`Completed` or `Errored`).

Modules, one per file:

- `Results` (`results.dfy`): `Option`, `Result` and the error kinds.
- `Strings` (`strings.dfy`): Java's `String.replace` and `String.split(" ")`, with their laws.
- `Paths` (`paths.dfy`): the `java.nio.file.Path` operations the code uses (`Paths.get`, `getFileName`, `toAbsolutePath`, `relativize`).
- `Archive` (`archive.dfy`): `zipDirectory`. An archive is a sequence of (name, bytes) entries.
- `Effects` (`effects.dfy`): the effect trace and its stage order.
- `Transform` (`transform.dfy`): `processFile`.
- `Messages` (`messages.dfy`): the queue message records.
- `Pipeline` (`pipeline.dfy`): `process` and `sendEmailNotification`.

Behaviour of the code worth knowing:

- **The batch can fail.** The mail sender may throw. `sendEmailNotification` calls it eagerly, and the compensation path calls it too. A throw there escapes `onErrorResume`, so the file's chain errors, and with it the batch (`Pipeline.Process`). Otherwise the batch yields the message (`Pipeline.BatchYieldsMessage`).
- **Two send attempts are possible.** If sending the success email throws, the failure email is sent after it (`Pipeline.RunFileEmailCount`).
- **A key without ".mp4" is uploaded over the video.** The upload key is the key with every ".mp4" replaced, so a key in which ".mp4" occurs nowhere, in the email or the file name, is its own upload key (`Pipeline.UploadKeyOfPlainKey`).
- **Every archive lies directly in `/tmp`.** The archive path depends only on the key, with '/' turned into '_' (`Pipeline.ZipPathFor`).
- **The walk recurses.** `Files.walk` descends into every subdirectory of the frames directory.
- **No cleanup, no status events, fixed temporary paths.** No temporary file or directory is ever deleted, and no status event is emitted. Temporary paths are fixed names under `/tmp` derived from the key.
- **Distinct files can share temporary files.** Turning '/' into '_' and removing ".mp4" can map two distinct keys to one name. The video "clip.mp4" and the file "clip" share the frames directory and the archive (`Pipeline.VideoAndStemShareArchive`). Senders "a_b" and "a", uploading "c" and "b_c", share the download path (`Pipeline.SendersShareDownload`). The same holds for a file name repeated within one message.

## Model

| member | source | states |
|---|---|---|
| Strings.ReplaceAll | src/main/java/br/com/processor/app/usecases/FileUseCase.java:29 | `replace` with a replacement no longer than the target never lengthens the string, and with one no shorter never shortens it |
| Strings.ReplaceAllAbsent | src/main/java/br/com/processor/app/usecases/FileUseCase.java:29 | `replace` leaves a string without the target unchanged, so a name without ".mp4" is its own base name |
| Strings.ReplaceAllKeepsOut | src/main/java/br/com/processor/app/usecases/FileUseCase.java:29 | `replace` introduces no character that is in neither the input nor the replacement, so a base name has no '/' |
| Strings.ReplaceCharIsMapChar | src/main/java/br/com/processor/app/usecases/ProcessFileUseCase.java:40 | replacing "/" by "_" equals substituting the character at every position |
| Strings.ReplaceCharRemoves | src/main/java/br/com/processor/app/usecases/ProcessFileUseCase.java:40 | after `key.replace("/", "_")` no '/' remains |
| Strings.ReplaceAllSkip | src/main/java/br/com/processor/app/usecases/ProcessFileUseCase.java:47 | a prefix free of the target's first character passes through `replace` unchanged |
| Strings.ReplaceAllSuffix | src/main/java/br/com/processor/app/usecases/ProcessFileUseCase.java:47 | a string ending in ".mp4" with no earlier ".mp4" has only that suffix replaced |
| Strings.ReplaceAllOnlyLast | src/main/java/br/com/processor/app/usecases/ProcessFileUseCase.java:47 | in a + target[0] + b + target, where target[0] appears in neither a nor b and b differs from the target's continuation at some position k (b[k-1] != target[k]), only the final target is rewritten |
| Strings.JoinSplit | src/main/java/br/com/processor/app/usecases/FileUseCase.java:36 | joining the pieces of a split with the separator gives the string back |
| Strings.SplitJoin | src/main/java/br/com/processor/app/usecases/FileUseCase.java:36 | splitting the join of separator-free pieces gives the pieces back |
| Strings.JavaSplitRejoin | src/main/java/br/com/processor/app/usecases/FileUseCase.java:36 | `split(" ")` loses nothing when the string is empty or does not end in a space: rejoining gives it back |
| Strings.JavaSplitJoin | src/main/java/br/com/processor/app/usecases/FileUseCase.java:36 | `split(" ")` of space-free pieces joined by spaces, the last non-empty, returns exactly those pieces |
| Strings.JavaSplit | src/main/java/br/com/processor/app/usecases/FileUseCase.java:36 | the pieces of `split(" ")` hold no space, and the last piece is empty only when the string itself is |
| Strings.LastPieceSuffix | src/main/java/br/com/processor/app/usecases/FileUseCase.java:29 | the last piece of a split on '/' is the text after the last '/' |
| Paths.Resolve | src/main/java/br/com/processor/app/usecases/FileUseCase.java:30-31 | `Paths.get(dir, name)` below a directory other than the root has file name `name` and is absolute when `dir` is |
| Paths.FileName | src/main/java/br/com/processor/app/usecases/FileUseCase.java:29 | `getFileName()` is missing only for the root, and a file name never contains a separator |
| Paths.FileNameIsLastComponent | src/main/java/br/com/processor/app/usecases/FileUseCase.java:29 | the file name is the text after the last '/' of the path, or the whole path when it has none |
| Paths.ToAbsolute | src/main/java/br/com/processor/app/usecases/FileUseCase.java:33 | `toAbsolutePath()` keeps an absolute path, gives the working directory for the empty path, and resolves a relative one against the working directory, writing no second '/' under the root |
| Paths.Relativize | src/main/java/br/com/processor/app/usecases/FileUseCase.java:55 | `relativize` against the walked directory inverts resolving against it |
| Paths.RelativizeWalkPath | src/main/java/br/com/processor/app/usecases/FileUseCase.java:55 | relativizing a walked path recovers the relative path it was reached by |
| Archive.WriteEntries | src/main/java/br/com/processor/app/usecases/FileUseCase.java:52-62 | the loop only adds entries after those already written, and every failure it raises is an I/O error |
| Archive.WriteEntriesStep | src/main/java/br/com/processor/app/usecases/FileUseCase.java:54-62 | one loop step on a regular file: the entry is named by its relative path; an unreadable file or a repeated name stops the loop |
| Archive.WriteEntriesPass | src/main/java/br/com/processor/app/usecases/FileUseCase.java:52-53 | a directory the walk cannot open stops the loop with an I/O error; any other non-regular path is passed over and adds no entry |
| Archive.WriteEntriesValue | src/main/java/br/com/processor/app/usecases/FileUseCase.java:52-62 | a finished loop has written exactly one entry per regular file, in walk order, holding its bytes |
| Archive.WriteEntriesSucceeds | src/main/java/br/com/processor/app/usecases/FileUseCase.java:52-62 | the loop succeeds if and only if every directory of the walk can be listed, every regular file is readable and no entry name repeats |
| Archive.WriteEntriesMeaning | src/main/java/br/com/processor/app/usecases/FileUseCase.java:52-62 | the loop succeeds exactly when the walk is readable and names are unique, and then holds the reference entries; every failure is an I/O error |
| Archive.ZipDirectory | src/main/java/br/com/processor/app/usecases/FileUseCase.java:49-67 | on success the step yields `zipPath`; an archive file that cannot be created or written fails it with an I/O error |
| Archive.ZipDirectoryMeaning | src/main/java/br/com/processor/app/usecases/FileUseCase.java:49-67 | the archive step succeeds if and only if the file can be created and written, the walk is readable and names are unique; its entries are then the reference entries; every failure is an I/O error, so the step never yields a partial archive |
| Archive.RegularEntriesSound | src/main/java/br/com/processor/app/usecases/FileUseCase.java:53 | every entry comes from a readable regular file of the walk, with that file's relative path and bytes |
| Archive.RegularEntriesComplete | src/main/java/br/com/processor/app/usecases/FileUseCase.java:53-55 | every readable regular file of the walk has its entry |
| Archive.DistinctPathsUniqueNames | src/main/java/br/com/processor/app/usecases/FileUseCase.java:55-57 | distinct walked paths give distinct entry names, so the duplicate-entry error cannot arise |
| Archive.ArchiveRoundTrip | src/main/java/br/com/processor/app/usecases/FileUseCase.java:52-64 | after a successful archive step, looking up a regular file's relative path in the archive returns that file's bytes |
| Archive.NonRegularNoEntry | src/main/java/br/com/processor/app/usecases/FileUseCase.java:53 | directories, the walked directory itself included, and other non-regular paths get no entry |
| Archive.RegularEntriesCount | src/main/java/br/com/processor/app/usecases/FileUseCase.java:53-58 | on a readable walk there is exactly one entry per regular file |
| Archive.ZipDirectorySucceeds | src/main/java/br/com/processor/app/usecases/FileUseCase.java:49-67 | on a real walk of readable paths with an archive file that can be created and written, the step succeeds with exactly one entry per regular file |
| Archive.LookupFindsEntry | src/main/java/br/com/processor/app/usecases/FileUseCase.java:55-57 | in an archive with unique names, every entry's bytes are found by its name |
| Effects.StagesInOrder | src/main/java/br/com/processor/app/usecases/ProcessFileUseCase.java:45-51 | a prefix of the five stage effects followed by emails only is in stage order |
| Effects.StagesIssued | src/main/java/br/com/processor/app/usecases/ProcessFileUseCase.java:45-51 | such a trace issues a stage if and only if the stage is among the first n |
| Effects.StagesThenEmails | src/main/java/br/com/processor/app/usecases/ProcessFileUseCase.java:45-51 | such a trace sends exactly one email per notice |
| Effects.EmailCountAppend | src/main/java/br/com/processor/app/usecases/ProcessFileUseCase.java:45-51 | the emails of two traces put one after the other add up |
| Transform.BaseName | src/main/java/br/com/processor/app/usecases/FileUseCase.java:29 | the base name of a separator-free file name has no separator |
| Transform.BaseNameOfPlainName | src/main/java/br/com/processor/app/usecases/FileUseCase.java:29 | a name without ".mp4" is its own base name |
| Transform.BaseNameOfVideo | src/main/java/br/com/processor/app/usecases/FileUseCase.java:29 | the base name of `stem.mp4` is `stem` when the stem holds no ".mp4" |
| Transform.BaseNameSinglePass | src/main/java/br/com/processor/app/usecases/FileUseCase.java:29 | removal is one left-to-right pass: the base name of "a.m.mp4p4" is "a.mp4", which still contains ".mp4" |
| Transform.FramesDir | src/main/java/br/com/processor/app/usecases/FileUseCase.java:30 | the frames directory is "/tmp/" + baseName + "_frames", an absolute path |
| Transform.ZipPath | src/main/java/br/com/processor/app/usecases/FileUseCase.java:30-31 | the archive path is the frames directory followed by ".zip", i.e. "/tmp/" + baseName + "_frames.zip" |
| Transform.ProcessFile | src/main/java/br/com/processor/app/usecases/FileUseCase.java:27-47 | a path without a file name fails before any effect; otherwise the effects are a non-empty prefix of mkdirs, exec, zip; success implies exit code 0 and yields the archive path |
| Transform.ProcessFileGates | src/main/java/br/com/processor/app/usecases/FileUseCase.java:32-46 | a failed `createDirectories` stops before ffmpeg; a process that cannot start, or exits non-zero with "FFmpeg failed", stops before the archive; only exit 0 reaches the archive step, whose result is the step's |
| Transform.Command | src/main/java/br/com/processor/app/usecases/FileUseCase.java:33 | the command string is the four intended arguments joined by single spaces, and never ends in a space |
| Transform.Argv | src/main/java/br/com/processor/app/usecases/FileUseCase.java:36 | no process argument contains a space |
| Transform.ArgvWithoutSpaces | src/main/java/br/com/processor/app/usecases/FileUseCase.java:33-36 | with no space in the input path or frames directory, ffmpeg gets exactly ["ffmpeg", "-i", input, framesDir + "/frame_%03d.jpg"] |
| Transform.ArgvRejoins | src/main/java/br/com/processor/app/usecases/FileUseCase.java:33-36 | whatever the paths hold, the arguments joined by spaces give back the command string |
| Transform.SpaceSplitsPaths | src/main/java/br/com/processor/app/usecases/FileUseCase.java:33-36 | a space inside the input path and the frames directory splits each into two separate arguments |
| Pipeline.FetchKey | src/main/java/br/com/processor/app/usecases/ProcessFileUseCase.java:39 | the object key is never empty and always contains '/' |
| Pipeline.TempName | src/main/java/br/com/processor/app/usecases/ProcessFileUseCase.java:40 | the temporary file name has no '/' and is as long as the key |
| Pipeline.TempPath | src/main/java/br/com/processor/app/usecases/ProcessFileUseCase.java:40 | the download destination is absolute, with the '/'-free temporary name as its file name |
| Pipeline.TempNameOfKey | src/main/java/br/com/processor/app/usecases/ProcessFileUseCase.java:39-40 | for a '/'-free email and file name, the temporary name is email + "_" + fileName |
| Pipeline.UploadKeyOfVideo | src/main/java/br/com/processor/app/usecases/ProcessFileUseCase.java:47 | the archive of `stem.mp4` is uploaded under `stem_frames.zip` when ".mp4" occurs nowhere else in the key |
| Pipeline.UploadKey | src/main/java/br/com/processor/app/usecases/ProcessFileUseCase.java:47 | a key without a '.' is its own upload key, so the archive overwrites the video |
| Pipeline.UploadKeyOfPlainKey | src/main/java/br/com/processor/app/usecases/ProcessFileUseCase.java:47 | any key in which ".mp4" does not occur is its own upload key |
| Pipeline.UploadKeyOfAddress | src/main/java/br/com/processor/app/usecases/ProcessFileUseCase.java:39-47 | for an address user.host with a single dot and a host not starting with "mp4", and a dot-free stem, the upload key is user.host/stem_frames.zip |
| Pipeline.PartsFromMp4 | src/main/java/br/com/processor/app/usecases/ProcessFileUseCase.java:39-47 | after the dot of such an address, the text parts from ".mp4" before the extension, so that dot starts no occurrence |
| Pipeline.UploadKeyExample | src/main/java/br/com/processor/app/usecases/ProcessFileUseCase.java:39-47 | user@example.com uploading video.mp4 gets user@example.com/video_frames.zip |
| Pipeline.ZipPathFor | src/main/java/br/com/processor/app/usecases/ProcessFileUseCase.java:40 | whatever the key, the archive path lies directly in /tmp |
| Pipeline.ZipPathOfVideo | src/main/java/br/com/processor/app/usecases/ProcessFileUseCase.java:40-68 | when neither the email nor the stem contains '/' and ".mp4" occurs nowhere in email + "_" + stem, the archive built for email/stem.mp4 is /tmp/<email>_<stem>_frames.zip |
| Pipeline.VideoAndStemShareArchive | src/main/java/br/com/processor/app/usecases/ProcessFileUseCase.java:39-68 | with the same conditions, the keys email/stem.mp4 and email/stem are distinct, yet both files get the same base name, so the same frames directory and the same archive |
| Pipeline.SendersShareDownload | src/main/java/br/com/processor/app/usecases/ProcessFileUseCase.java:39-40 | for '/'-free a, b and name, sender a_b's file name and sender a's file b_name have distinct keys but the same download path |
| Pipeline.FailureSendIssued | src/main/java/br/com/processor/app/usecases/ProcessFileUseCase.java:51-62 | the failure email is sent eagerly, so it is issued whether or not the send throws: the run's effects do not depend on it |
| Pipeline.SuccessSendThrows | src/main/java/br/com/processor/app/usecases/ProcessFileUseCase.java:50-62 | when every stage succeeds, a success send that throws has still been issued, and the failure email follows it; otherwise the effects are those of a working send |
| Pipeline.RunFile | src/main/java/br/com/processor/app/usecases/ProcessFileUseCase.java:41-52 | every run ends with an email; a file not uploaded successfully gets only the failure email without attachment; a run errors only with a mail failure |
| Pipeline.RunFileShape | src/main/java/br/com/processor/app/usecases/ProcessFileUseCase.java:45-51 | a run's effects are a prefix of fetch, mkdirs, exec, zip, upload, followed by its notices; all five are issued exactly when the status is success, fetch succeeds and the transform succeeds |
| Pipeline.RunFileSplit | src/main/java/br/com/processor/app/usecases/ProcessFileUseCase.java:45-51 | a run is the first stages it reached, one per stage in order, followed by notices that are all emails |
| Pipeline.RunFileIssues | src/main/java/br/com/processor/app/usecases/ProcessFileUseCase.java:45-51 | a run issues a stage if and only if it reached it |
| Pipeline.RunFileInStageOrder | src/main/java/br/com/processor/app/usecases/ProcessFileUseCase.java:45-51 | fetch, transform effects and upload happen strictly in that order, and emails only after them |
| Pipeline.RunFileAt | src/main/java/br/com/processor/app/usecases/ProcessFileUseCase.java:45-51 | each effect of a run is either the stage effect at its position or one of the notices |
| Pipeline.AllStagesKeys | src/main/java/br/com/processor/app/usecases/ProcessFileUseCase.java:39-47 | the stage sequence fetches under the key into /tmp/ + key with '/' replaced by '_', and uploads under the key with ".mp4" replaced by "_frames.zip" |
| Pipeline.RunFileKeys | src/main/java/br/com/processor/app/usecases/ProcessFileUseCase.java:39-47 | any fetch of a run uses key email + "/" + fileName and destination "/tmp/" + key with '/' as '_'; any upload uses the key with ".mp4" as "_frames.zip" and sends the archive the transform built |
| Pipeline.ReachedGates | src/main/java/br/com/processor/app/usecases/ProcessFileUseCase.java:42-47 | how far a run gets is decided by the first failing stage: status, fetch, mkdirs, exit code, archive |
| Pipeline.RunFileShortCircuits | src/main/java/br/com/processor/app/usecases/ProcessFileUseCase.java:42-47 | each stage is issued if and only if every stage before it succeeded, so a failing stage prevents all later ones |
| Pipeline.RunFileEmailCount | src/main/java/br/com/processor/app/usecases/ProcessFileUseCase.java:50-51 | exactly one email send per file, except two send attempts when every stage succeeded and the success email's send threw |
| Pipeline.NoticeFacts | src/main/java/br/com/processor/app/usecases/ProcessFileUseCase.java:43-51 | each notice goes to the uploader with subject "File processor"; only the success body carries an attachment, the archive, and only when every stage succeeded |
| Pipeline.RunFileEmails | src/main/java/br/com/processor/app/usecases/ProcessFileUseCase.java:43-51 | every email of a run goes to the uploader under the one subject; the attachment is present exactly for the success body, is the built archive, and only when every stage succeeded; failure emails have none |
| Pipeline.RunFileCompletion | src/main/java/br/com/processor/app/usecases/ProcessFileUseCase.java:41-52 | a run completes if its stages and success email succeed, and otherwise exactly when the failure email can be sent |
| Pipeline.GatedFile | src/main/java/br/com/processor/app/usecases/ProcessFileUseCase.java:42-43 | a file not uploaded successfully is never fetched, transformed or uploaded; it gets one "Error to process file: <name>" email without attachment |
| Pipeline.SucceedingFile | src/main/java/br/com/processor/app/usecases/ProcessFileUseCase.java:47-50 | when every stage and the mail succeed, the run completes with exactly one email, "Success to process file: <name>", with the archive attached |
| Pipeline.Dispatch | src/main/java/br/com/processor/app/usecases/ProcessFileUseCase.java:37-53 | one run per file, each the file's own run on its own outcomes |
| Pipeline.Process | src/main/java/br/com/processor/app/usecases/ProcessFileUseCase.java:35-55 | every file gets exactly one run; the batch yields the input message unchanged if and only if every run completes, and otherwise fails with the mail failure |
| Pipeline.BatchYieldsMessage | src/main/java/br/com/processor/app/usecases/ProcessFileUseCase.java:35-55 | while failure emails can be sent, fetch, transform, upload or success-email failures never fail the batch: it yields the message |

## Left out

- **Object storage.** `BucketUseCase` and the S3 client appear only as outcomes (`fetchOk`, `uploadOk`). `uploadFile` yields the path it was given.
- **Synchronous client throws.** A storage client that throws while the request is being assembled, rather than failing its future, is not distinguished from a failed future.
- **Mail.** `EmailUseCase` and JavaMail appear only as an email effect whose send may throw. The attachment-exists check inside the sender and the HTML body are not modelled.
- **The queue.** The listener loop, JSON decoding, message deletion and the publisher are transport plumbing outside this model.
- **Reactor scheduling.** Order between files, `boundedElastic` offloading and the fire-and-forget `subscribe()` are not modelled. No order between files is claimed.
- **Sibling cancellation.** When one file's run errors, `flatMap` may cancel siblings still in flight. `Pipeline.Process` still lists every file's full run; only the batch result reflects the error.
- **Process execution.** ffmpeg appears only as an outcome: it could not start or wait, or it exited with a code. The frames it writes are part of the walk given to the archive step. The `Exec` effect stands for the attempt to start, so it is recorded even when the start fails.
- **Runs that never end.** Every run is assumed to end. ffmpeg's merged output is never read and `waitFor()` has no timeout (`FileUseCase.java:36-39`), and the storage futures and the mail send have no timeout either. So a process or call that never finishes leaves its file without any email, and `process` never yields the message. The model has no outcome for a call that never returns, because a run is a finite trace.
- **Colliding temporary files.** `flatMap` runs the files of a message concurrently, and separate messages may be processed at the same time. Files whose keys collide after the '/'→'_' and ".mp4" rewrites share the download path, the frames directory or the archive. The model gives each file its own outcomes and treats the runs as independent, so it does not model one run overwriting or reading another's files.
- **The file system.** The walk order, directory creation and the file contents are inputs. NUL characters in paths, which make the JDK reject a path, are not modelled.
- **ZIP encoding.** The container layout, DEFLATE and the 65535-byte entry-name limit are not modelled. An archive is its list of (name, bytes) entries, and a duplicate entry name is an I/O failure.
- **Null values.** A null email or file name, or a null file list, is not modelled. A null status counts as "not uploaded successfully".
- **Logging.** Log calls are left out.
- **Temp cleanup and status events.** The code has neither, so there is nothing to model.
- **The unit test for `ProcessFileUseCase`.** It targets a different revision, with a separate transform service, status events and a re-raised upload error. The model follows the main source.
- Archive.ZipDirectory: a failed step returns only its error. The partial archive file that closing the stream completes stays at `zipPath`, and is not modelled.
- Archive.ZipDirectory: one flag says whether writing the archive file fails. Where the failure strikes (an entry's bytes, the central directory written on close, or the close itself) is not distinguished, since each fails the step with an I/O error.
- Transform.ProcessFile: its contract states the effect prefix and what success implies. The exact gate behind each failure is stated separately in `Transform.ProcessFileGates`, to keep the contract cheap to use.
- Pipeline.RunFile: its contract does not state the completion rule. That rule is stated in `Pipeline.RunFileCompletion`.

=== FILE: archive.dfy ===
/**
 Packing the frames directory into a ZIP archive (`zipDirectory`). The
 archive is abstracted to its list of entries, each a name and the stored
 bytes; the ZIP container layout and DEFLATE encoding are not modelled.
 */
module Archive {
  import opened Results
  import opened Paths

  type Byte = bv8
  type Bytes = seq<Byte>

  /**
   What the file system holds at a walked path. `content` is None when
   opening or reading the file raises an IOException; a directory that is
   not `listable` cannot be opened by the walk, whose stream then throws.
   */
  datatype Node = RegularFile(content: Option<Bytes>) | Directory(listable: bool) | OtherFile

  /** One path reported by `Files.walk`, given relative to the walked directory. */
  datatype WalkEntry = WalkEntry(rel: string, node: Node)

  datatype ZipEntry = ZipEntry(name: string, data: Bytes)

  /**
   What `zipDirectory` finds: whether the archive file can be created,
   whether every write to it succeeds (the entries' bytes, the central
   directory written when the stream is closed, and the close itself), and
   the walk.
   */
  datatype ArchiveEnv = ArchiveEnv(canCreate: bool, writeOk: bool, walk: seq<WalkEntry>)

  /** A finished archive: where it was written and what it holds. */
  datatype Zipped = Zipped(path: Path, entries: seq<ZipEntry>)

  predicate HasName(entries: seq<ZipEntry>, name: string) {
    exists k :: 0 <= k < |entries| && entries[k].name == name
  }

  predicate UniqueNames(entries: seq<ZipEntry>) {
    forall i, j :: 0 <= i < j < |entries| ==> entries[i].name != entries[j].name
  }

  /** A walked path the walk and the loop can get through: a readable file, a listable directory. */
  predicate Passable(n: Node) {
    match n
    case RegularFile(content) => content.Some?
    case Directory(listable) => listable
    case OtherFile => true
  }

  /** Every path met by the walk can be read: regular files opened and read, directories listed. */
  predicate Readable(walk: seq<WalkEntry>) {
    forall i :: 0 <= i < |walk| ==> Passable(walk[i].node)
  }

  /** The walk never reports the same path twice, as a real file system guarantees. */
  predicate DistinctPaths(walk: seq<WalkEntry>) {
    forall i, j :: 0 <= i < j < |walk| ==> walk[i].rel != walk[j].rel
  }

  /**
   Reference contents of the archive: one entry per readable regular file,
   in walk order, named by its relative path, holding its bytes.
   */
  function RegularEntries(walk: seq<WalkEntry>): (r: seq<ZipEntry>)
    decreases |walk|
  {
    if |walk| == 0 then []
    else
      var w := walk[0];
      var rest := RegularEntries(walk[1..]);
      if w.node.RegularFile? && w.node.content.Some? then [ZipEntry(w.rel, w.node.content.value)] + rest
      else rest
  }

  /**
   The `forEach` over the filtered walk: for each regular file, the entry
   name is its path relativized against `dir`; a directory the walk cannot
   open, an unreadable file, or a name already written (ZipOutputStream's
   duplicate-entry ZipException) aborts the whole write. Whatever was
   written before stays: the entries only grow, and every failure is an
   I/O error.
   */
  function WriteEntries(dir: Path, walk: seq<WalkEntry>, written: seq<ZipEntry>): (r: Result<seq<ZipEntry>>)
    ensures r.Ok? ==> |written| <= |r.value| && r.value[..|written|] == written
    ensures r.Err? ==> r.error == IoFailure
    decreases |walk|
  {
    if |walk| == 0 then Ok(written)
    else
      var w := walk[0];
      if w.node.Directory? && !w.node.listable then Err(IoFailure)
      else if !w.node.RegularFile? then WriteEntries(dir, walk[1..], written)
      else
        var name := Relativize(dir, WalkPath(dir, w.rel));
        if w.node.content.None? then Err(IoFailure)
        else if HasName(written, name) then Err(IoFailure)
        else WriteEntries(dir, walk[1..], written + [ZipEntry(name, w.node.content.value)])
  }

  /**
   `zipDirectory(sourceDir, zipPath)`: create the archive file, write the
   entries, close the stream, and yield `zipPath`; any I/O error fails the
   whole step. A failing write fails it even on an empty walk, since closing
   writes the central directory.
   */
  function ZipDirectory(sourceDir: Path, zipPath: Path, env: ArchiveEnv): (r: Result<Zipped>)
    ensures r.Ok? ==> r.value.path == zipPath
    ensures !env.canCreate ==> r == Err(IoFailure)
    ensures !env.writeOk ==> r == Err(IoFailure)
  {
    if !env.canCreate then Err(IoFailure)
    else
      match WriteEntries(sourceDir, env.walk, [])
      case Ok(entries) => if env.writeOk then Ok(Zipped(zipPath, entries)) else Err(IoFailure)
      case Err(e) => Err(e)
  }

  /**
   One step of the loop on a regular file: its entry is named by its
   relative path; an unreadable file or a repeated name stops the loop.
   */
  lemma WriteEntriesStep(dir: Path, walk: seq<WalkEntry>, written: seq<ZipEntry>)
    requires |walk| > 0 && walk[0].node.RegularFile?
    ensures var w := walk[0];
      var r := WriteEntries(dir, walk, written);
      && (w.node.content.None? ==> r == Err(IoFailure))
      && (w.node.content.Some? && HasName(written, w.rel) ==> r == Err(IoFailure))
      && (w.node.content.Some? && !HasName(written, w.rel) ==>
            r == WriteEntries(dir, walk[1..], written + [ZipEntry(w.rel, w.node.content.value)]))
  {
    RelativizeWalkPath(dir, walk[0].rel);
  }

  /**
   One step of the loop on any other path: an unlistable directory stops
   the walk; a listable directory or a non-regular file is passed over
   and adds no entry.
   */
  lemma WriteEntriesPass(dir: Path, walk: seq<WalkEntry>, written: seq<ZipEntry>)
    requires |walk| > 0 && !walk[0].node.RegularFile?
    ensures !Passable(walk[0].node) ==> WriteEntries(dir, walk, written) == Err(IoFailure)
    ensures Passable(walk[0].node) ==> WriteEntries(dir, walk, written) == WriteEntries(dir, walk[1..], written)
    ensures RegularEntries(walk) == RegularEntries(walk[1..])
  {
  }

  /** Appending an entry with a new name keeps the names unique. */
  lemma AppendFreshName(written: seq<ZipEntry>, e: ZipEntry)
    requires UniqueNames(written) && !HasName(written, e.name)
    ensures UniqueNames(written + [e])
  {
  }

  /** An entry whose name was already written breaks uniqueness, whatever follows it. */
  lemma RepeatedName(written: seq<ZipEntry>, e: ZipEntry, rest: seq<ZipEntry>)
    requires HasName(written, e.name)
    ensures !UniqueNames((written + [e]) + rest)
  {
    var k :| 0 <= k < |written| && written[k].name == e.name;
    var all := (written + [e]) + rest;
    assert all[k] == written[k] && all[|written|] == e;
  }

  /**
   The loop writes exactly the reference entries after those already
   written, and fails exactly when a directory cannot be listed, a regular
   file is unreadable or a name repeats.
   */
  lemma WriteEntriesMeaning(dir: Path, walk: seq<WalkEntry>, written: seq<ZipEntry>)
    requires UniqueNames(written)
    ensures var r := WriteEntries(dir, walk, written);
      && (r.Ok? <==> Readable(walk) && UniqueNames(written + RegularEntries(walk)))
      && (r.Ok? ==> r.value == written + RegularEntries(walk))
      && (r.Err? ==> r.error == IoFailure)
  {
    WriteEntriesValue(dir, walk, written);
    WriteEntriesSucceeds(dir, walk, written);
  }

  /** What a finished loop holds: the reference entries after those already written. */
  lemma {:induction false} WriteEntriesValue(dir: Path, walk: seq<WalkEntry>, written: seq<ZipEntry>)
    ensures var r := WriteEntries(dir, walk, written);
      r.Ok? ==> r.value == written + RegularEntries(walk)
    decreases |walk|
  {
    if |walk| > 0 {
      var w := walk[0];
      var rest := walk[1..];
      if w.node.Directory? && !w.node.listable {
      } else if !w.node.RegularFile? {
        WriteEntriesPass(dir, walk, written);
        WriteEntriesValue(dir, rest, written);
      } else {
        WriteEntriesStep(dir, walk, written);
        if w.node.content.Some? && !HasName(written, w.rel) {
          var e := ZipEntry(w.rel, w.node.content.value);
          assert written + RegularEntries(walk) == (written + [e]) + RegularEntries(rest);
          WriteEntriesValue(dir, rest, written + [e]);
        }
      }
    } else {
      assert written + RegularEntries(walk) == written;
    }
  }

  /** When the loop succeeds: every path of the walk readable, and no name repeated. */
  lemma {:induction false} WriteEntriesSucceeds(dir: Path, walk: seq<WalkEntry>, written: seq<ZipEntry>)
    requires UniqueNames(written)
    ensures WriteEntries(dir, walk, written).Ok? <==> Readable(walk) && UniqueNames(written + RegularEntries(walk))
    decreases |walk|
  {
    if |walk| > 0 {
      var w := walk[0];
      var rest := walk[1..];
      ReadableCons(walk);
      if w.node.Directory? && !w.node.listable {
      } else if !w.node.RegularFile? {
        WriteEntriesSucceeds(dir, rest, written);
      } else {
        WriteEntriesStep(dir, walk, written);
        if w.node.content.Some? {
          var e := ZipEntry(w.rel, w.node.content.value);
          assert written + RegularEntries(walk) == (written + [e]) + RegularEntries(rest);
          if HasName(written, w.rel) {
            RepeatedName(written, e, RegularEntries(rest));
          } else {
            AppendFreshName(written, e);
            WriteEntriesSucceeds(dir, rest, written + [e]);
          }
        }
      }
    } else {
      assert written + RegularEntries(walk) == written;
    }
  }

  /** Helper: readability of a walk splits into its head and its tail. */
  lemma ReadableCons(walk: seq<WalkEntry>)
    requires |walk| > 0
    ensures Readable(walk) <==> Passable(walk[0].node) && Readable(walk[1..])
  {
    if Passable(walk[0].node) && Readable(walk[1..]) {
      forall i | 0 <= i < |walk|
        ensures Passable(walk[i].node)
      {
        if i > 0 {
          assert walk[1..][i - 1] == walk[i];
        }
      }
    }
  }

  /**
   The archive step succeeds exactly when the archive file can be created
   and written, every path of the walk is readable and no two entry names
   coincide; its entries are then the reference entries.
   */
  lemma ZipDirectoryMeaning(sourceDir: Path, zipPath: Path, env: ArchiveEnv)
    ensures var r := ZipDirectory(sourceDir, zipPath, env);
      && (r.Ok? <==> env.canCreate && env.writeOk && Readable(env.walk) && UniqueNames(RegularEntries(env.walk)))
      && (r.Ok? ==> r.value == Zipped(zipPath, RegularEntries(env.walk)))
      && (r.Err? ==> r.error == IoFailure)
  {
    WriteEntriesMeaning(sourceDir, env.walk, []);
    assert [] + RegularEntries(env.walk) == RegularEntries(env.walk);
  }

  /** `e` is the entry of some readable regular file of the walk. */
  ghost predicate FromWalk(walk: seq<WalkEntry>, e: ZipEntry) {
    exists i :: 0 <= i < |walk| && walk[i] == WalkEntry(e.name, RegularFile(Some(e.data)))
  }

  /** Every reference entry comes from a readable regular file of the walk. */
  lemma {:induction false} RegularEntriesSound(walk: seq<WalkEntry>)
    ensures forall e :: e in RegularEntries(walk) ==> FromWalk(walk, e)
    decreases |walk|
  {
    if |walk| > 0 {
      RegularEntriesSound(walk[1..]);
      forall e | e in RegularEntries(walk)
        ensures FromWalk(walk, e)
      {
        var w := walk[0];
        if w.node.RegularFile? && w.node.content.Some? && e == ZipEntry(w.rel, w.node.content.value) {
          assert walk[0] == WalkEntry(e.name, RegularFile(Some(e.data)));
        } else {
          assert e in RegularEntries(walk[1..]);
          var i :| 0 <= i < |walk[1..]| && walk[1..][i] == WalkEntry(e.name, RegularFile(Some(e.data)));
          assert walk[i + 1] == walk[1..][i];
        }
      }
    }
  }

  /** Every readable regular file of the walk has its entry in the reference entries. */
  lemma {:induction false} RegularEntriesComplete(walk: seq<WalkEntry>, i: nat)
    requires i < |walk| && walk[i].node.RegularFile? && walk[i].node.content.Some?
    ensures ZipEntry(walk[i].rel, walk[i].node.content.value) in RegularEntries(walk)
    decreases i
  {
    if i > 0 {
      assert walk[1..][i - 1] == walk[i];
      RegularEntriesComplete(walk[1..], i - 1);
    }
  }

  /** A walk over distinct paths yields distinct entry names. */
  lemma {:induction false} DistinctPathsUniqueNames(walk: seq<WalkEntry>)
    requires DistinctPaths(walk)
    ensures UniqueNames(RegularEntries(walk))
    decreases |walk|
  {
    if |walk| > 0 {
      var rest := walk[1..];
      assert DistinctPaths(rest) by {
        forall i, j | 0 <= i < j < |rest| ensures rest[i].rel != rest[j].rel {
          assert rest[i] == walk[i + 1] && rest[j] == walk[j + 1];
        }
      }
      DistinctPathsUniqueNames(rest);
      RegularEntriesSound(rest);
      var w := walk[0];
      var tail := RegularEntries(rest);
      forall e | e in tail
        ensures e.name != w.rel
      {
        var m :| 0 <= m < |rest| && rest[m] == WalkEntry(e.name, RegularFile(Some(e.data)));
        assert walk[m + 1] == rest[m];
      }
      if w.node.RegularFile? && w.node.content.Some? {
        var es := RegularEntries(walk);
        forall i, j | 0 <= i < j < |es|
          ensures es[i].name != es[j].name
        {
          assert es[j] == tail[j - 1];
          if i > 0 {
            assert es[i] == tail[i - 1];
          }
        }
      }
    }
  }

  /** The entries of a successful archive, looked up by name. */
  function Lookup(entries: seq<ZipEntry>, name: string): Option<Bytes>
    decreases |entries|
  {
    if |entries| == 0 then None
    else if entries[0].name == name then Some(entries[0].data)
    else Lookup(entries[1..], name)
  }

  /** In an archive with unique names, each entry's bytes are recovered by its name. */
  lemma {:induction false} LookupFindsEntry(entries: seq<ZipEntry>, e: ZipEntry)
    requires UniqueNames(entries) && e in entries
    ensures Lookup(entries, e.name) == Some(e.data)
    decreases |entries|
  {
    if entries[0] != e {
      var k :| 0 <= k < |entries| && entries[k] == e;
      assert k > 0 && entries[0].name != e.name;
      assert entries[1..][k - 1] == e;
      LookupFindsEntry(entries[1..], e);
    }
  }

  /**
   Round trip: when the archive is written, every regular file of the walk
   was readable, and its bytes are recovered from the archive under its path
   relative to the walked directory.
   */
  lemma ArchiveRoundTrip(sourceDir: Path, zipPath: Path, env: ArchiveEnv, i: nat)
    requires ZipDirectory(sourceDir, zipPath, env).Ok?
    requires i < |env.walk| && env.walk[i].node.RegularFile?
    ensures env.walk[i].node.content.Some?
    ensures Lookup(ZipDirectory(sourceDir, zipPath, env).value.entries, env.walk[i].rel)
            == env.walk[i].node.content
  {
    ZipDirectoryMeaning(sourceDir, zipPath, env);
    RegularEntriesComplete(env.walk, i);
    LookupFindsEntry(RegularEntries(env.walk), ZipEntry(env.walk[i].rel, env.walk[i].node.content.value));
  }

  /** Directories and other non-regular paths contribute no entry. */
  lemma NonRegularNoEntry(sourceDir: Path, zipPath: Path, env: ArchiveEnv, i: nat)
    requires DistinctPaths(env.walk)
    requires ZipDirectory(sourceDir, zipPath, env).Ok?
    requires i < |env.walk| && !env.walk[i].node.RegularFile?
    ensures !HasName(ZipDirectory(sourceDir, zipPath, env).value.entries, env.walk[i].rel)
  {
    ZipDirectoryMeaning(sourceDir, zipPath, env);
    RegularEntriesSound(env.walk);
    var es := RegularEntries(env.walk);
    forall k | 0 <= k < |es|
      ensures es[k].name != env.walk[i].rel
    {
      assert FromWalk(env.walk, es[k]);
    }
  }

  /** How many regular files the walk met. */
  function CountRegular(walk: seq<WalkEntry>): nat
    decreases |walk|
  {
    if |walk| == 0 then 0
    else (if walk[0].node.RegularFile? then 1 else 0) + CountRegular(walk[1..])
  }

  /** On a readable walk the reference entries are exactly one per regular file. */
  lemma {:induction false} RegularEntriesCount(walk: seq<WalkEntry>)
    requires Readable(walk)
    ensures |RegularEntries(walk)| == CountRegular(walk)
    decreases |walk|
  {
    if |walk| > 0 {
      ReadableCons(walk);
      RegularEntriesCount(walk[1..]);
    }
  }

  /**
   On a real walk (distinct paths, all readable) with an archive file that
   can be created and written, the step succeeds, with exactly one entry
   per regular file.
   */
  lemma ZipDirectorySucceeds(sourceDir: Path, zipPath: Path, env: ArchiveEnv)
    requires env.canCreate && env.writeOk && Readable(env.walk) && DistinctPaths(env.walk)
    ensures ZipDirectory(sourceDir, zipPath, env).Ok?
    ensures |ZipDirectory(sourceDir, zipPath, env).value.entries| == CountRegular(env.walk)
  {
    ZipDirectoryMeaning(sourceDir, zipPath, env);
    DistinctPathsUniqueNames(env.walk);
    RegularEntriesCount(env.walk);
  }
}

=== FILE: effects.dfy ===
/** The externally visible actions of one file's processing run, in the order they are issued. */
module Effects {
  import opened Results
  import opened Paths

  datatype Effect =
    | Fetch(key: string, dest: Path)                 // getFile: download an object to a local path
    | MakeDirs(dir: Path)                            // createDirectories
    | Exec(argv: seq<string>)                        // start the external frame extractor
    | Zip(source: Path, target: Path)                // zipDirectory
    | Upload(key: string, file: Path)                // uploadFile: store a local file as an object
    | Email(to: string, subject: string, body: string, attachment: Option<Path>)

  const FetchStage := 0
  const MakeDirsStage := 1
  const ExecStage := 2
  const ZipStage := 3
  const UploadStage := 4
  const NotifyStage := 5

  /** The pipeline stage an effect belongs to, in pipeline order. */
  function Stage(e: Effect): nat {
    match e
    case Fetch(_, _) => FetchStage
    case MakeDirs(_) => MakeDirsStage
    case Exec(_) => ExecStage
    case Zip(_, _) => ZipStage
    case Upload(_, _) => UploadStage
    case Email(_, _, _, _) => NotifyStage
  }

  /** The trace holds an effect of the given stage. */
  predicate Issues(effects: seq<Effect>, stage: nat) {
    exists i :: 0 <= i < |effects| && Stage(effects[i]) == stage
  }

  /**
   Stages strictly advance along the trace; only notifications may follow
   one another.
   */
  predicate InStageOrder(effects: seq<Effect>) {
    forall i, j :: 0 <= i < j < |effects| ==>
      Stage(effects[i]) < Stage(effects[j]) || (effects[i].Email? && effects[j].Email?)
  }

  /** How many emails the trace sends. */
  function EmailCount(effects: seq<Effect>): nat
    decreases |effects|
  {
    if |effects| == 0 then 0
    else (if effects[|effects| - 1].Email? then 1 else 0) + EmailCount(effects[..|effects| - 1])
  }

  /** Emails in a concatenation add up. */
  lemma {:induction false} EmailCountAppend(a: seq<Effect>, b: seq<Effect>)
    ensures EmailCount(a + b) == EmailCount(a) + EmailCount(b)
    decreases |b|
  {
    if |b| > 0 {
      assert (a + b)[..|a + b| - 1] == a + b[..|b| - 1];
      EmailCountAppend(a, b[..|b| - 1]);
    } else {
      assert a + b == a;
    }
  }

  /** A trace of emails only counts each of them; a trace without emails counts none. */
  lemma {:induction false} EmailCountUniform(effects: seq<Effect>, allEmails: bool)
    requires forall i :: 0 <= i < |effects| ==> effects[i].Email? == allEmails
    ensures EmailCount(effects) == if allEmails then |effects| else 0
    decreases |effects|
  {
    if |effects| > 0 {
      EmailCountUniform(effects[..|effects| - 1], allEmails);
    }
  }

  /**
   A trace made of the first `n` of the five stage effects, one per stage in
   order, followed by emails only, is in stage order.
   */
  lemma StagesInOrder(stages: seq<Effect>, n: nat, notices: seq<Effect>)
    requires |stages| == 5 && n <= 5
    requires forall k :: 0 <= k < 5 ==> Stage(stages[k]) == k
    requires forall k :: 0 <= k < |notices| ==> notices[k].Email?
    ensures InStageOrder(stages[..n] + notices)
  {
    var trace := stages[..n] + notices;
    forall i, j | 0 <= i < j < |trace|
      ensures Stage(trace[i]) < Stage(trace[j]) || (trace[i].Email? && trace[j].Email?)
    {
      if j < n {
        assert trace[i] == stages[i] && trace[j] == stages[j];
      } else if i < n {
        assert trace[i] == stages[i] && trace[j] == notices[j - n];
      } else {
        assert trace[i] == notices[i - n] && trace[j] == notices[j - n];
      }
    }
  }

  /** Such a trace issues exactly the first `n` stages. */
  lemma StagesIssued(stages: seq<Effect>, n: nat, notices: seq<Effect>, stage: nat)
    requires |stages| == 5 && n <= 5 && stage < NotifyStage
    requires forall k :: 0 <= k < 5 ==> Stage(stages[k]) == k
    requires forall k :: 0 <= k < |notices| ==> notices[k].Email?
    ensures Issues(stages[..n] + notices, stage) <==> stage < n
  {
    var trace := stages[..n] + notices;
    if stage < n {
      assert Stage(trace[stage]) == stage;
    } else {
      forall i | 0 <= i < |trace|
        ensures Stage(trace[i]) != stage
      {
        if i < n {
          assert trace[i] == stages[i];
        } else {
          assert trace[i] == notices[i - n];
        }
      }
    }
  }

  /** Such a trace sends one email per notice. */
  lemma StagesThenEmails(stages: seq<Effect>, n: nat, notices: seq<Effect>)
    requires |stages| == 5 && n <= 5
    requires forall k :: 0 <= k < 5 ==> Stage(stages[k]) == k
    requires forall k :: 0 <= k < |notices| ==> notices[k].Email?
    ensures EmailCount(stages[..n] + notices) == |notices|
  {
    EmailCountUniform(stages[..n], false);
    EmailCountUniform(notices, true);
    EmailCountAppend(stages[..n], notices);
  }
}

=== FILE: messages.dfy ===
/** The inbound queue message: who uploaded, and which files. */
module Messages {

  /** The upload state the uploader reported; anything but success (null included) is `OtherStatus`. */
  datatype UploadFileStatus = UploadSuccess | OtherStatus

  datatype UploadFileMessage = UploadFileMessage(fileId: string, fileName: string, status: UploadFileStatus)

  datatype UploadQueueMessage = UploadQueueMessage(email: string, files: seq<UploadFileMessage>)
}

=== FILE: paths.dfy ===
/**
 Unix paths as the JDK's `java.nio.file.Path` prints them. A path is held in
 its normal form: components separated by a single '/', no trailing '/',
 a leading '/' when absolute.
 */
module Paths {
  import opened Results
  import opened Strings

  type Path = string

  /** The directory every temporary file of the processor lives in. */
  const Tmp: Path := "/tmp"

  predicate IsAbsolute(p: Path) {
    |p| > 0 && p[0] == '/'
  }

  /**
   `Paths.get(dir, name)` for a single, non-empty name component, below a
   directory other than the root (under which the JDK writes no second '/').
   */
  function Resolve(dir: Path, name: string): (p: Path)
    requires '/' !in name && name != "" && dir != "/"
    ensures FileName(p) == Some(name)
    ensures IsAbsolute(dir) ==> IsAbsolute(p)
  {
    var p := dir + "/" + name;
    SplitOnConcat(dir, name, '/');
    SplitOnNoSeparator(name, '/');
    p
  }

  /**
   `p.getFileName().toString()`: the last component; only the root "/" has
   none (the JDK returns null there), and a name never holds a separator.
   */
  function FileName(p: Path): (name: Option<string>)
    ensures name.None? <==> p == "/"
    ensures name.Some? ==> '/' !in name.value
  {
    if p == "/" then None
    else var parts := SplitOn(p, '/'); Some(parts[|parts| - 1])
  }

  /** The file name is the text after the last '/' of the path (all of it when there is none). */
  lemma FileNameIsLastComponent(p: Path)
    requires p != "/"
    ensures var name := FileName(p).value;
      && |name| <= |p| && p[|p| - |name|..] == name
      && (|name| < |p| ==> p[|p| - |name| - 1] == '/')
  {
    LastPieceSuffix(p, '/');
  }

  /**
   `p.toAbsolutePath()`, with the process's working directory as a
   parameter: a relative path is resolved against it, the empty path is the
   working directory itself, and under the root no second '/' is written.
   */
  function ToAbsolute(p: Path, cwd: Path): (r: Path)
    ensures IsAbsolute(cwd) ==> IsAbsolute(r)
    ensures IsAbsolute(p) ==> r == p
    ensures p == "" ==> r == cwd
    ensures !IsAbsolute(p) && p != "" && cwd != "/" ==> r == cwd + "/" + p
    ensures !IsAbsolute(p) && cwd == "/" ==> r == "/" + p
  {
    if IsAbsolute(p) then p
    else if p == "" then cwd
    else if cwd == "/" then "/" + p
    else cwd + "/" + p
  }

  /** `p` is `dir` itself or lies below it. */
  predicate IsUnder(dir: Path, p: Path) {
    p == dir || (|p| > |dir| + 1 && p[..|dir| + 1] == dir + "/")
  }

  /**
   The path `Files.walk(dir)` reports for an entry at relative path `rel`
   ("" for the directory itself).
   */
  function WalkPath(dir: Path, rel: string): (p: Path)
    ensures IsUnder(dir, p)
  {
    if rel == "" then dir else dir + "/" + rel
  }

  /** `dir.relativize(p).toString()` for a path at or below `dir`. */
  function Relativize(dir: Path, p: Path): (rel: string)
    requires IsUnder(dir, p)
    ensures WalkPath(dir, rel) == p
  {
    if p == dir then "" else p[|dir| + 1..]
  }

  /** Relativizing a walked path recovers the relative path it was reached by. */
  lemma RelativizeWalkPath(dir: Path, rel: string)
    ensures Relativize(dir, WalkPath(dir, rel)) == rel
  {
    if rel != "" {
      assert WalkPath(dir, rel)[|dir| + 1..] == rel;
    }
  }
}

=== FILE: pipeline.dfy ===
/**
 The per-file pipeline and the batch around it (`ProcessFileUseCase.process`).
 Each file of a queue message is gated on its upload status, fetched from the
 uploads bucket to a temporary path, transformed into a frames archive, and
 the archive uploaded next to the video; the uploader is then told by email.
 Any stage failure is turned into a failure email. The outcome of every
 external call is a parameter, so a run is a function of the message and
 those outcomes: the effects it issues, in order, and how it completes.
 */
module Pipeline {
  import opened Results
  import opened Strings
  import opened Paths
  import opened Archive
  import opened Effects
  import opened Transform
  import opened Messages

  const Subject := "File processor"

  function ErrorBody(fileName: string): string {
    "Error to process file: " + fileName
  }

  function SuccessBody(fileName: string): string {
    "Success to process file: " + fileName
  }

  /** What each external call of one file's run does. */
  datatype StageOutcomes = StageOutcomes(
    fetchOk: bool,            // getFile completes
    transform: TransformEnv,  // what processFile meets
    uploadOk: bool,           // uploadFile completes
    successMailOk: bool,      // sending the success email does not throw
    failureMailOk: bool)      // sending the failure email does not throw

  /** How one file's reactive chain ends: it completes, or it signals an error. */
  datatype Completion = Completed | Errored(error: Error)

  datatype FileRun = FileRun(effects: seq<Effect>, completion: Completion)

  /** The result of `process`: every file's run, and the batch's own signal. */
  datatype BatchRun = BatchRun(runs: seq<FileRun>, result: Result<UploadQueueMessage>)

  /** The object key of the uploaded video. */
  function FetchKey(email: string, fileName: string): (key: string)
    ensures key != "" && '/' in key
  {
    var key := email + "/" + fileName;
    assert key[|email|] == '/';
    key
  }

  /** The key with every '/' turned into '_', so that it is a single file name. */
  function TempName(key: string): (name: string)
    ensures '/' !in name && |name| == |key|
  {
    ReplaceCharRemoves(key, '/', '_');
    ReplaceCharIsMapChar(key, '/', '_');
    ReplaceAll(key, "/", "_")
  }

  /** Where the video is downloaded: a file directly inside /tmp. */
  function TempPath(key: string): (dest: Path)
    requires key != ""
    ensures IsAbsolute(dest) && FileName(dest) == Some(TempName(key))
  {
    Resolve(Tmp, TempName(key))
  }

  /**
   The key the archive is uploaded under. A key without a '.' is kept as it
   is, so its archive is uploaded over the video itself.
   */
  function UploadKey(key: string): (upload: string)
    ensures '.' !in key ==> upload == key
  {
    ReplaceAllAbsent(key, ".mp4", "_frames.zip");
    forall i: nat | OccursAt(key, ".mp4", i)
      ensures key[i] == '.'
    {
      assert key[i..i + 4][0] == '.';
    }
    ReplaceAll(key, ".mp4", "_frames.zip")
  }

  /** A key without ".mp4" is its own upload key: the archive is uploaded over the video. */
  lemma UploadKeyOfPlainKey(key: string)
    requires !Occurs(key, ".mp4")
    ensures UploadKey(key) == key
  {
    ReplaceAllAbsent(key, ".mp4", "_frames.zip");
  }

  /** A single-component key: the '/' between email and file name becomes '_'. */
  lemma TempNameOfKey(email: string, fileName: string)
    requires '/' !in email && '/' !in fileName
    ensures TempName(FetchKey(email, fileName)) == email + "_" + fileName
  {
    assert email + "/" + fileName == email + ("/" + fileName);
    ReplaceCharConcat(email, "/" + fileName, '/', '_');
    ReplaceCharConcat("/", fileName, '/', '_');
    ReplaceCharAbsent(email, '/', '_');
    ReplaceCharAbsent(fileName, '/', '_');
    ReplaceAllHead("/", "", "_");
    assert "/" + "" == "/";
  }

  /** A video `stem.mp4` with no other ".mp4" in its key is archived under `stem_frames.zip`. */
  lemma UploadKeyOfVideo(stem: string)
    requires !Occurs(stem, ".mp4")
    ensures UploadKey(stem + ".mp4") == stem + "_frames.zip"
  {
    assert forall k :: 0 < k < |".mp4"| ==> ".mp4"[k] != ".mp4"[0];
    ReplaceAllSuffix(stem, ".mp4", "_frames.zip");
  }

  /**
   For an address user.host (one dot, the host not starting with "mp4") and
   a stem without dots, only the extension of the video is rewritten.
   */
  lemma UploadKeyOfAddress(user: string, host: string, stem: string)
    requires '.' !in user && '.' !in host && '.' !in stem
    requires !(|host| >= 3 && host[..3] == "mp4")
    ensures UploadKey(FetchKey(user + "." + host, stem + ".mp4")) == user + "." + host + "/" + stem + "_frames.zip"
  {
    var b := host + "/" + stem;
    var k := PartsFromMp4(host, stem);
    assert FetchKey(user + "." + host, stem + ".mp4") == user + ("." + (b + ".mp4")) by {
      assert '.' !in b;
    }
    ReplaceAllOnlyLast(user, b, ".mp4", "_frames.zip", k);
    Regroup(user, ".", host, "/", stem, "_frames.zip");
  }

  /**
   The text after the dot of an address whose host does not start with
   "mp4" parts from ".mp4" at some position `k`.
   */
  lemma PartsFromMp4(host: string, stem: string) returns (k: nat)
    requires !(|host| >= 3 && host[..3] == "mp4")
    ensures 0 < k < |".mp4"| && k <= |host + "/" + stem| && (host + "/" + stem)[k - 1] != ".mp4"[k]
  {
    var b := host + "/" + stem;
    k := if |host| == 0 || host[0] != 'm' then 1 else if |host| == 1 || host[1] != 'p' then 2 else 3;
    if k == 3 && |host| > 2 {
      assert host[..3] == [host[0], host[1], host[2]];
    }
  }

  /** The example address: user@example.com/video.mp4 is archived as user@example.com/video_frames.zip. */
  lemma UploadKeyExample()
    ensures UploadKey(FetchKey("user@example.com", "video.mp4")) == "user@example.com/video_frames.zip"
  {
    assert "user@example" + "." + "com" == "user@example.com";
    assert "video" + ".mp4" == "video.mp4";
    assert "user@example" + "." + "com" + "/" + "video" + "_frames.zip" == "user@example.com/video_frames.zip";
    assert "com"[..3][0] == 'c';
    UploadKeyOfAddress("user@example", "com", "video");
  }

  /**
   The archive the transform step builds for the video under `key`: whatever
   the key, it lies directly in /tmp.
   */
  function ZipPathFor(key: string): (zip: Path)
    ensures |zip| > 5 && zip[..5] == "/tmp/" && '/' !in zip[5..]
  {
    var base := BaseName(TempName(key));
    assert ZipPath(base)[5..] == base + "_frames.zip";
    ZipPath(base)
  }

  /**
   `sendEmailNotification`: the mail is sent eagerly, before any
   subscription, and the returned Mono is empty; so the send is always
   issued, and the run signals an error exactly when the send throws.
   */
  function SendEmailNotification(to: string, body: string, attachment: Option<Path>, sendOk: bool): (run: FileRun)
  {
    FileRun([Email(to, Subject, body, attachment)], if sendOk then Completed else Errored(MailFailure))
  }

  /** `run` issued after the effects `before`. */
  function After(before: seq<Effect>, run: FileRun): FileRun {
    FileRun(before + run.effects, run.completion)
  }

  /**
   One file's run: the `Mono.defer` body of `process` with its
   `onErrorResume` fallback.
   */
  function RunFile(email: string, file: UploadFileMessage, o: StageOutcomes): (run: FileRun)
    ensures |run.effects| >= 1 && run.effects[|run.effects| - 1].Email?
    ensures file.status != UploadSuccess ==>
      run.effects == [Email(email, Subject, ErrorBody(file.fileName), None)]
    ensures run.completion.Errored? ==> run.completion.error == MailFailure
  {
    var key := FetchKey(email, file.fileName);
    var dest := TempPath(key);
    var failure := SendEmailNotification(email, ErrorBody(file.fileName), None, o.failureMailOk);
    if file.status != UploadSuccess then failure
    else
      var fetched := [Fetch(key, dest)];
      if !o.fetchOk then After(fetched, failure)
      else
        var t := ProcessFile(dest, o.transform);
        var transformed := fetched + t.effects;
        if t.result.Err? then After(transformed, failure)
        else
          // uploadFile yields the path it was given
          var zip := t.result.value.path;
          var uploaded := transformed + [Upload(UploadKey(key), zip)];
          if !o.uploadOk then After(uploaded, failure)
          else
            var success := SendEmailNotification(email, SuccessBody(file.fileName), Some(zip), o.successMailOk);
            if success.completion.Completed? then After(uploaded, success)
            else After(uploaded + success.effects, failure)
  }

  /** The transform step succeeds on the downloaded file. */
  predicate TransformOk(email: string, file: UploadFileMessage, o: StageOutcomes) {
    ProcessFile(TempPath(FetchKey(email, file.fileName)), o.transform).result.Ok?
  }

  /** Every stage up to and including the upload succeeds. */
  predicate StagesSucceed(email: string, file: UploadFileMessage, o: StageOutcomes) {
    file.status == UploadSuccess && o.fetchOk && TransformOk(email, file, o) && o.uploadOk
  }

  /** The fetch, transform and upload effects of a run that goes all the way. */
  function AllStages(key: string, cwd: Path): seq<Effect>
    requires key != ""
  {
    var dest := TempPath(key);
    [Fetch(key, dest)] + Planned(BaseName(TempName(key)), ToAbsolute(dest, cwd))
      + [Upload(UploadKey(key), ZipPathFor(key))]
  }

  /** How many of the stage effects a run issues before it turns to notifying. */
  function Reached(email: string, file: UploadFileMessage, o: StageOutcomes): nat {
    if file.status != UploadSuccess then 0
    else if !o.fetchOk then 1
    else
      var t := ProcessFile(TempPath(FetchKey(email, file.fileName)), o.transform);
      if t.result.Err? then 1 + |t.effects| else 5
  }

  function FailureEmail(email: string, fileName: string): Effect {
    Email(email, Subject, ErrorBody(fileName), None)
  }

  function SuccessEmail(email: string, key: string, fileName: string): Effect {
    Email(email, Subject, SuccessBody(fileName), Some(ZipPathFor(key)))
  }

  /** The emails a run sends after its stage effects. */
  function Notices(email: string, file: UploadFileMessage, o: StageOutcomes): seq<Effect> {
    var key := FetchKey(email, file.fileName);
    if !StagesSucceed(email, file, o) then [FailureEmail(email, file.fileName)]
    else if o.successMailOk then [SuccessEmail(email, key, file.fileName)]
    else [SuccessEmail(email, key, file.fileName), FailureEmail(email, file.fileName)]
  }

  /**
   The archive of `email/stem.mp4` is /tmp/<email>_<stem>_frames.zip, when
   neither part holds a '/' and ".mp4" occurs only at the end.
   */
  lemma ZipPathOfVideo(email: string, stem: string)
    requires '/' !in email && '/' !in stem
    requires !Occurs(email + "_" + stem, ".mp4")
    ensures ZipPathFor(FetchKey(email, stem + ".mp4")) == "/tmp/" + email + "_" + stem + "_frames.zip"
  {
    var key := FetchKey(email, stem + ".mp4");
    TempNameOfKey(email, stem + ".mp4");
    assert email + "_" + (stem + ".mp4") == (email + "_" + stem) + ".mp4";
    assert forall k :: 0 < k < |".mp4"| ==> ".mp4"[k] != ".mp4"[0];
    ReplaceAllSuffix(email + "_" + stem, ".mp4", "");
    assert BaseName(TempName(key)) == email + "_" + stem;
  }

  /**
   A video and a file of the same stem without the extension have distinct
   keys, but the same base name: they share the frames directory and the
   archive.
   */
  lemma VideoAndStemShareArchive(email: string, stem: string)
    requires '/' !in email && '/' !in stem
    requires !Occurs(email + "_" + stem, ".mp4")
    ensures FetchKey(email, stem + ".mp4") != FetchKey(email, stem)
    ensures BaseName(TempName(FetchKey(email, stem + ".mp4"))) == BaseName(TempName(FetchKey(email, stem)))
    ensures ZipPathFor(FetchKey(email, stem + ".mp4")) == ZipPathFor(FetchKey(email, stem))
  {
    assert |FetchKey(email, stem + ".mp4")| == |FetchKey(email, stem)| + 4;
    TempNameOfKey(email, stem + ".mp4");
    assert email + "_" + (stem + ".mp4") == (email + "_" + stem) + ".mp4";
    assert forall k :: 0 < k < |".mp4"| ==> ".mp4"[k] != ".mp4"[0];
    ReplaceAllSuffix(email + "_" + stem, ".mp4", "");
    TempNameOfKey(email, stem);
    ReplaceAllAbsent(email + "_" + stem, ".mp4", "");
  }

  /**
   Two senders whose email and file name differ only in where the '/'
   stands, such as "a_b" with "c" and "a" with "b_c", have distinct keys but
   download to the same temporary file.
   */
  lemma SendersShareDownload(a: string, b: string, name: string)
    requires '/' !in a && '/' !in b && '/' !in name
    ensures FetchKey(a + "_" + b, name) != FetchKey(a, b + "_" + name)
    ensures TempPath(FetchKey(a + "_" + b, name)) == TempPath(FetchKey(a, b + "_" + name))
  {
    assert FetchKey(a + "_" + b, name)[|a|] == '_';
    assert FetchKey(a, b + "_" + name)[|a|] == '/';
    TempNameOfKey(a + "_" + b, name);
    TempNameOfKey(a, b + "_" + name);
    assert (a + "_" + b) + "_" + name == a + "_" + (b + "_" + name);
  }

  /** The five stage effects, one per stage, in stage order. */
  lemma AllStagesInOrder(key: string, cwd: Path)
    requires key != ""
    ensures |AllStages(key, cwd)| == 5
    ensures forall k :: 0 <= k < 5 ==> Stage(AllStages(key, cwd)[k]) == k
  {
  }

  /**
   Every run is a prefix of fetch, mkdirs, exec, zip, upload, followed by
   its emails.
   */
  lemma RunFileShape(email: string, file: UploadFileMessage, o: StageOutcomes)
    ensures Reached(email, file, o) <= 5
    ensures Reached(email, file, o) == 5 <==>
      file.status == UploadSuccess && o.fetchOk && TransformOk(email, file, o)
    ensures RunFile(email, file, o).effects
         == AllStages(FetchKey(email, file.fileName), o.transform.cwd)[..Reached(email, file, o)]
            + Notices(email, file, o)
  {
    var key := FetchKey(email, file.fileName);
    var dest := TempPath(key);
    var all := AllStages(key, o.transform.cwd);
    if file.status == UploadSuccess && o.fetchOk {
      var t := ProcessFile(dest, o.transform);
      var planned := Planned(BaseName(TempName(key)), ToAbsolute(dest, o.transform.cwd));
      assert t.effects == planned[..|t.effects|];
      assert all[..1 + |t.effects|] == [Fetch(key, dest)] + t.effects;
      if t.result.Ok? {
        assert t.effects == planned;
        assert t.result.value.path == ZipPathFor(key);
      }
    }
  }

  /** A run's trace, split at how far its stages got. */
  lemma RunFileSplit(email: string, file: UploadFileMessage, o: StageOutcomes)
    ensures var all := AllStages(FetchKey(email, file.fileName), o.transform.cwd);
      && |all| == 5
      && (forall k :: 0 <= k < 5 ==> Stage(all[k]) == k)
      && (forall k :: 0 <= k < |Notices(email, file, o)| ==> Notices(email, file, o)[k].Email?)
      && RunFile(email, file, o).effects == all[..Reached(email, file, o)] + Notices(email, file, o)
  {
    RunFileShape(email, file, o);
    AllStagesInOrder(FetchKey(email, file.fileName), o.transform.cwd);
  }

  /** Stages run strictly in order (fetch, transform, upload), and all notifications come last. */
  lemma RunFileInStageOrder(email: string, file: UploadFileMessage, o: StageOutcomes)
    ensures InStageOrder(RunFile(email, file, o).effects)
  {
    RunFileSplit(email, file, o);
    StagesInOrder(AllStages(FetchKey(email, file.fileName), o.transform.cwd), Reached(email, file, o),
                  Notices(email, file, o));
  }

  /** A run issues exactly the stages it reached. */
  lemma RunFileIssues(email: string, file: UploadFileMessage, o: StageOutcomes, stage: nat)
    requires stage < NotifyStage
    ensures Issues(RunFile(email, file, o).effects, stage) <==> stage < Reached(email, file, o)
  {
    RunFileSplit(email, file, o);
    StagesIssued(AllStages(FetchKey(email, file.fileName), o.transform.cwd), Reached(email, file, o),
                 Notices(email, file, o), stage);
  }

  /**
   The object keys: the video is fetched under email + "/" + fileName into
   /tmp under that key with '/' replaced by '_'; the archive is uploaded
   under the key with every ".mp4" replaced by "_frames.zip", from the
   archive the transform step built.
   */
  lemma RunFileKeys(email: string, file: UploadFileMessage, o: StageOutcomes, i: nat)
    ensures i < |RunFile(email, file, o).effects| ==>
      var e := RunFile(email, file, o).effects[i];
      var key := email + "/" + file.fileName;
      && (e.Fetch? ==> e == Fetch(key, "/tmp/" + ReplaceAll(key, "/", "_")))
      && (e.Upload? ==> e == Upload(ReplaceAll(key, ".mp4", "_frames.zip"), ZipPathFor(key)))
  {
    var key := FetchKey(email, file.fileName);
    RunFileAt(email, file, o, i);
    if i < |RunFile(email, file, o).effects| && i < Reached(email, file, o) {
      AllStagesKeys(key, o.transform.cwd, i);
    }
  }

  /** The effect at index `i` of a run: a stage effect before `Reached`, a notice after. */
  lemma RunFileAt(email: string, file: UploadFileMessage, o: StageOutcomes, i: nat)
    ensures i < |RunFile(email, file, o).effects| ==>
      var e := RunFile(email, file, o).effects[i];
      var n := Reached(email, file, o);
      || (i < n && e == AllStages(FetchKey(email, file.fileName), o.transform.cwd)[i])
      || (i >= n && e == Notices(email, file, o)[i - n])
  {
    var all := AllStages(FetchKey(email, file.fileName), o.transform.cwd);
    var n := Reached(email, file, o);
    var notices := Notices(email, file, o);
    RunFileShape(email, file, o);
    assert RunFile(email, file, o).effects == all[..n] + notices;
  }

  /** The one fetch and the one upload among the stage effects. */
  lemma AllStagesKeys(key: string, cwd: Path, i: nat)
    requires key != "" && i < 5
    ensures var e := AllStages(key, cwd)[i];
      && (e.Fetch? ==> e == Fetch(key, "/tmp/" + ReplaceAll(key, "/", "_")))
      && (e.Upload? ==> e == Upload(ReplaceAll(key, ".mp4", "_frames.zip"), ZipPathFor(key)))
  {
    if i == 0 {
      AllStagesFetch(key, cwd);
    } else if i < 4 {
      AllStagesTransform(key, cwd, i);
    }
  }

  /** The first stage effect downloads the key into /tmp under its '/'-free name. */
  lemma AllStagesFetch(key: string, cwd: Path)
    requires key != ""
    ensures AllStages(key, cwd)[0] == Fetch(key, "/tmp/" + ReplaceAll(key, "/", "_"))
  {
    assert TempPath(key) == "/tmp/" + ReplaceAll(key, "/", "_");
  }

  /** The middle stage effects are those of the transform step: neither a fetch nor an upload. */
  lemma AllStagesTransform(key: string, cwd: Path, i: nat)
    requires key != "" && 0 < i < 4
    ensures !AllStages(key, cwd)[i].Fetch? && !AllStages(key, cwd)[i].Upload?
  {
    var plan := Planned(BaseName(TempName(key)), ToAbsolute(TempPath(key), cwd));
    assert AllStages(key, cwd)[i] == plan[i - 1];
  }

  /** A failing stage stops every later stage: each stage runs exactly when all before it succeeded. */
  lemma RunFileShortCircuits(email: string, file: UploadFileMessage, o: StageOutcomes)
    ensures var effects := RunFile(email, file, o).effects;
      && (Issues(effects, FetchStage) <==> file.status == UploadSuccess)
      && (Issues(effects, MakeDirsStage) <==> file.status == UploadSuccess && o.fetchOk)
      && (Issues(effects, ExecStage) <==> file.status == UploadSuccess && o.fetchOk && o.transform.mkdirsOk)
      && (Issues(effects, ZipStage) <==>
            file.status == UploadSuccess && o.fetchOk && o.transform.mkdirsOk && o.transform.exec == Exited(0))
      && (Issues(effects, UploadStage) <==> file.status == UploadSuccess && o.fetchOk && TransformOk(email, file, o))
  {
    RunFileIssues(email, file, o, FetchStage);
    RunFileIssues(email, file, o, MakeDirsStage);
    RunFileIssues(email, file, o, ExecStage);
    RunFileIssues(email, file, o, ZipStage);
    RunFileIssues(email, file, o, UploadStage);
    ReachedGates(email, file, o);
  }

  /** How far a run gets is decided by the first stage that fails. */
  lemma ReachedGates(email: string, file: UploadFileMessage, o: StageOutcomes)
    ensures var n := Reached(email, file, o);
      && (n >= 1 <==> file.status == UploadSuccess)
      && (n >= 2 <==> file.status == UploadSuccess && o.fetchOk)
      && (n >= 3 <==> file.status == UploadSuccess && o.fetchOk && o.transform.mkdirsOk)
      && (n >= 4 <==> file.status == UploadSuccess && o.fetchOk && o.transform.mkdirsOk && o.transform.exec == Exited(0))
      && (n >= 5 <==> file.status == UploadSuccess && o.fetchOk && TransformOk(email, file, o))
  {
    if file.status == UploadSuccess && o.fetchOk {
      ProcessFileGates(TempPath(FetchKey(email, file.fileName)), o.transform);
    }
  }

  /**
   Exactly one notification per file, except when the success email throws:
   then the failure email follows it.
   */
  lemma RunFileEmailCount(email: string, file: UploadFileMessage, o: StageOutcomes)
    ensures EmailCount(RunFile(email, file, o).effects)
         == if StagesSucceed(email, file, o) && !o.successMailOk then 2 else 1
  {
    RunFileSplit(email, file, o);
    StagesThenEmails(AllStages(FetchKey(email, file.fileName), o.transform.cwd), Reached(email, file, o),
                     Notices(email, file, o));
  }

  /**
   Every email goes to the uploader under the one subject. Only the success
   email carries an attachment, the archive, and only when every stage
   succeeded; every failure email has none.
   */
  lemma RunFileEmails(email: string, file: UploadFileMessage, o: StageOutcomes, i: nat)
    ensures i < |RunFile(email, file, o).effects| && RunFile(email, file, o).effects[i].Email? ==>
      var e := RunFile(email, file, o).effects[i];
      && e.to == email && e.subject == Subject
      && (e.attachment.Some? <==> e.body == SuccessBody(file.fileName))
      && (e.attachment.Some? ==>
            StagesSucceed(email, file, o) && e.attachment.value == ZipPathFor(email + "/" + file.fileName))
      && (e.attachment.None? ==> e.body == ErrorBody(file.fileName))
  {
    RunFileAt(email, file, o, i);
    AllStagesInOrder(FetchKey(email, file.fileName), o.transform.cwd);
    if i < |RunFile(email, file, o).effects| && i >= Reached(email, file, o) {
      NoticeFacts(email, file, o, i - Reached(email, file, o));
    }
  }

  /** What each notice of a run says. */
  lemma NoticeFacts(email: string, file: UploadFileMessage, o: StageOutcomes, j: nat)
    requires j < |Notices(email, file, o)|
    ensures var e := Notices(email, file, o)[j];
      && e.Email? && e.to == email && e.subject == Subject
      && (e.attachment.Some? <==> e.body == SuccessBody(file.fileName))
      && (e.attachment.Some? ==>
            StagesSucceed(email, file, o) && e.attachment.value == ZipPathFor(email + "/" + file.fileName))
      && (e.attachment.None? ==> e.body == ErrorBody(file.fileName))
  {
    assert ErrorBody(file.fileName) != SuccessBody(file.fileName) by {
      assert ErrorBody(file.fileName)[0] == 'E' && SuccessBody(file.fileName)[0] == 'S';
    }
  }

  /**
   A run completes when its stages succeed and the success email goes out;
   otherwise it completes exactly when the failure email can be sent, since
   `onErrorResume` turns every other failure into that email.
   */
  lemma RunFileCompletion(email: string, file: UploadFileMessage, o: StageOutcomes)
    ensures RunFile(email, file, o).completion.Completed? <==>
      if StagesSucceed(email, file, o) && o.successMailOk then true else o.failureMailOk
  {
  }

  /**
   The notification is sent eagerly: a failure send that throws has still
   been issued, so the run's effects do not depend on whether it throws.
   */
  lemma FailureSendIssued(email: string, file: UploadFileMessage, o: StageOutcomes, ok: bool)
    ensures RunFile(email, file, o.(failureMailOk := ok)).effects == RunFile(email, file, o).effects
  {
    RunFileShape(email, file, o);
    RunFileShape(email, file, o.(failureMailOk := ok));
  }

  /**
   A success send that throws has still been issued, and `onErrorResume`
   then adds the failure email after it.
   */
  lemma SuccessSendThrows(email: string, file: UploadFileMessage, o: StageOutcomes)
    requires StagesSucceed(email, file, o)
    ensures RunFile(email, file, o.(successMailOk := false)).effects
         == RunFile(email, file, o.(successMailOk := true)).effects + [FailureEmail(email, file.fileName)]
  {
    RunFileShape(email, file, o.(successMailOk := false));
    RunFileShape(email, file, o.(successMailOk := true));
  }

  /** A file that was not uploaded successfully is never fetched, transformed or uploaded; one failure email, no attachment. */
  lemma GatedFile(email: string, file: UploadFileMessage, o: StageOutcomes)
    requires file.status != UploadSuccess
    ensures RunFile(email, file, o).effects == [Email(email, "File processor", "Error to process file: " + file.fileName, None)]
    ensures RunFile(email, file, o).completion.Completed? <==> o.failureMailOk
  {
  }

  /**
   When every stage succeeds and the mail goes out, the run sends exactly
   the success email with the archive attached, and completes.
   */
  lemma SucceedingFile(email: string, file: UploadFileMessage, o: StageOutcomes)
    requires StagesSucceed(email, file, o) && o.successMailOk
    ensures var run := RunFile(email, file, o);
      && run.completion == Completed
      && EmailCount(run.effects) == 1
      && run.effects[|run.effects| - 1]
         == Email(email, "File processor", "Success to process file: " + file.fileName,
                  Some(ZipPathFor(email + "/" + file.fileName)))
  {
    RunFileShape(email, file, o);
    RunFileEmailCount(email, file, o);
  }

  /** The `flatMap` over the message's files: one run per file, each on its own outcomes. */
  function Dispatch(email: string, files: seq<UploadFileMessage>, outcomes: seq<StageOutcomes>): (runs: seq<FileRun>)
    requires |outcomes| == |files|
    ensures |runs| == |files|
    ensures forall i :: 0 <= i < |files| ==> runs[i] == RunFile(email, files[i], outcomes[i])
    decreases |files|
  {
    if |files| == 0 then []
    else [RunFile(email, files[0], outcomes[0])] + Dispatch(email, files[1..], outcomes[1..])
  }

  /**
   `process(message)`: every file gets exactly one run; once all have
   completed, the batch yields the message itself. A run that errors (its
   failure email threw) makes the batch signal that error instead.
   */
  function Process(message: UploadQueueMessage, outcomes: seq<StageOutcomes>): (b: BatchRun)
    requires |outcomes| == |message.files|
    ensures |b.runs| == |message.files|
    ensures forall i :: 0 <= i < |message.files| ==> b.runs[i] == RunFile(message.email, message.files[i], outcomes[i])
    ensures b.result.Ok? <==> forall i :: 0 <= i < |b.runs| ==> b.runs[i].completion.Completed?
    ensures b.result.Ok? ==> b.result.value == message
    ensures b.result.Err? ==> b.result.error == MailFailure
  {
    var runs := Dispatch(message.email, message.files, outcomes);
    BatchRun(runs, if forall i :: 0 <= i < |runs| ==> runs[i].completion.Completed? then Ok(message) else Err(MailFailure))
  }

  /**
   Failures of fetch, transform, upload or the success email are all
   compensated: as long as failure emails can be sent, the batch yields
   the message.
   */
  lemma BatchYieldsMessage(message: UploadQueueMessage, outcomes: seq<StageOutcomes>)
    requires |outcomes| == |message.files|
    requires forall i :: 0 <= i < |outcomes| ==> outcomes[i].failureMailOk
    ensures Process(message, outcomes).result == Ok(message)
  {
    var b := Process(message, outcomes);
    forall i | 0 <= i < |b.runs|
      ensures b.runs[i].completion.Completed?
    {
      RunFileCompletion(message.email, message.files[i], outcomes[i]);
    }
  }
}

=== FILE: results.dfy ===
/** Failure-carrying values shared by every stage of the file processor. */
module Results {

  datatype Option<+T> = None | Some(value: T)

  /** The ways a stage can fail. Java exceptions collapse into these kinds. */
  datatype Error =
    | IoFailure               // IOException / UncheckedIOException on the local disk
    | InvalidPath             // a path without a file name (getFileName() is null)
    | ProcessFailure          // the external process could not be started or awaited
    | Business(message: string)  // BusinessException raised by the processor itself
    | MailFailure             // the mail sender threw

  datatype Result<+T> = Ok(value: T) | Err(error: Error)
}

=== FILE: strings.dfy ===
/**
 The two pieces of java.lang.String behaviour the processor is built on:
 `replace(CharSequence, CharSequence)`, which replaces every non-overlapping
 occurrence scanning from the left, and `split(" ")` with its removal of
 trailing empty strings. Splitting and joining on one character are also
 used for path names.
 */
module Strings {

  /** `t` occurs in `s` starting at index `i`. */
  predicate OccursAt(s: string, t: string, i: nat) {
    i + |t| <= |s| && s[i..i + |t|] == t
  }

  ghost predicate Occurs(s: string, t: string) {
    exists i: nat :: OccursAt(s, t, i)
  }

  /**
   Java's `s.replace(target, replacement)` for a non-empty target. A
   replacement no longer than the target never lengthens the string, and
   one no shorter never shortens it.
   */
  function ReplaceAll(s: string, target: string, replacement: string): (r: string)
    requires |target| > 0
    ensures |replacement| <= |target| ==> |r| <= |s|
    ensures |replacement| >= |target| ==> |r| >= |s|
    decreases |s|
  {
    if |s| < |target| then s
    else if s[..|target|] == target then replacement + ReplaceAll(s[|target|..], target, replacement)
    else [s[0]] + ReplaceAll(s[1..], target, replacement)
  }

  /** Character-wise substitution, the reference meaning of a one-character replace. */
  function MapChar(s: string, c: char, d: char): (r: string)
    ensures |r| == |s|
    ensures forall i :: 0 <= i < |s| ==> r[i] == if s[i] == c then d else s[i]
  {
    seq(|s|, i requires 0 <= i < |s| => if s[i] == c then d else s[i])
  }

  /** When the target does not occur, replacing it changes nothing. */
  lemma {:induction false} ReplaceAllAbsent(s: string, target: string, replacement: string)
    requires |target| > 0
    ensures !Occurs(s, target) ==> ReplaceAll(s, target, replacement) == s
    decreases |s|
  {
    if !Occurs(s, target) && |s| >= |target| {
      assert OccursAt(s, target, 0) <==> s[..|target|] == target;
      assert s[..|target|] != target;
      OccursTail(s, target);
      ReplaceAllAbsent(s[1..], target, replacement);
      assert s == [s[0]] + s[1..];
    }
  }

  /** A string without an occurrence has none after its first character either. */
  lemma OccursTail(s: string, t: string)
    requires |s| > 0 && !Occurs(s, t)
    ensures !Occurs(s[1..], t)
  {
    forall i: nat | OccursAt(s[1..], t, i)
      ensures false
    {
      assert s[1..][i..i + |t|] == s[i + 1..i + 1 + |t|];
      assert OccursAt(s, t, i + 1);
    }
  }

  /** Replacing never introduces a character found neither in the input nor in the replacement. */
  lemma {:induction false} ReplaceAllKeepsOut(s: string, target: string, replacement: string, c: char)
    requires |target| > 0
    requires c !in s && c !in replacement
    ensures c !in ReplaceAll(s, target, replacement)
    decreases |s|
  {
    if |s| >= |target| {
      if s[..|target|] == target {
        assert c !in s[|target|..];
        ReplaceAllKeepsOut(s[|target|..], target, replacement, c);
      } else {
        assert c !in s[1..];
        ReplaceAllKeepsOut(s[1..], target, replacement, c);
      }
    }
  }

  /** Replacing one character by another is character-wise substitution. */
  lemma {:induction false} ReplaceCharIsMapChar(s: string, c: char, d: char)
    ensures ReplaceAll(s, [c], [d]) == MapChar(s, c, d)
    decreases |s|
  {
    if |s| > 0 {
      var head := if s[0] == c then [d] else [s[0]];
      assert ReplaceAll(s, [c], [d]) == head + ReplaceAll(s[1..], [c], [d]) by {
        assert s[..1] == [s[0]];
        assert s[1..] == s[|[c]|..];
      }
      ReplaceCharIsMapChar(s[1..], c, d);
      assert MapChar(s, c, d) == head + MapChar(s[1..], c, d);
    }
  }

  /** After replacing every `c` by a different character, no `c` remains. */
  lemma ReplaceCharRemoves(s: string, c: char, d: char)
    requires c != d
    ensures c !in ReplaceAll(s, [c], [d])
  {
    ReplaceCharIsMapChar(s, c, d);
  }

  /** A one-character replace leaves a string without that character unchanged. */
  lemma ReplaceCharAbsent(s: string, c: char, d: char)
    requires c !in s
    ensures ReplaceAll(s, [c], [d]) == s
  {
    ReplaceCharIsMapChar(s, c, d);
  }

  /** A one-character replace distributes over concatenation. */
  lemma ReplaceCharConcat(a: string, b: string, c: char, d: char)
    ensures ReplaceAll(a + b, [c], [d]) == ReplaceAll(a, [c], [d]) + ReplaceAll(b, [c], [d])
  {
    ReplaceCharIsMapChar(a + b, c, d);
    ReplaceCharIsMapChar(a, c, d);
    ReplaceCharIsMapChar(b, c, d);
  }

  /** A prefix free of the target's first character is copied unchanged. */
  lemma {:induction false} ReplaceAllSkip(a: string, b: string, target: string, replacement: string)
    requires |target| > 0
    requires target[0] !in a
    ensures ReplaceAll(a + b, target, replacement) == a + ReplaceAll(b, target, replacement)
    decreases |a|
  {
    if |a| > 0 {
      var s := a + b;
      assert s[0] == a[0] != target[0];
      assert s[1..] == a[1..] + b;
      ReplaceAllSkip(a[1..], b, target, replacement);
      assert a == [a[0]] + a[1..];
      if |s| >= |target| {
        assert s[..|target|][0] == s[0];
        assert ReplaceAll(s, target, replacement) == [s[0]] + ReplaceAll(s[1..], target, replacement);
        assert [a[0]] + (a[1..] + ReplaceAll(b, target, replacement)) == a + ReplaceAll(b, target, replacement);
      } else {
        assert ReplaceAll(b, target, replacement) == b;
      }
    } else {
      assert a + b == b;
    }
  }

  /** A target appended to a string free of its first character is the one occurrence replaced. */
  lemma ReplaceAllLast(pre: string, target: string, replacement: string)
    requires |target| > 0 && target[0] !in pre
    ensures ReplaceAll(pre + target, target, replacement) == pre + replacement
  {
    ReplaceAllSkip(pre, target, target, replacement);
    assert target == target + [];
    ReplaceAllHead(target, [], replacement);
  }

  /**
   In `a`, then the target's first character, then `b` and the target, only
   the final target is replaced, when the first character appears in
   neither `a` nor `b` and `b` parts from the target's continuation at some
   position `k` (so the first character there starts no occurrence).
   */
  lemma ReplaceAllOnlyLast(a: string, b: string, target: string, replacement: string, k: nat)
    requires |target| > 1 && target[0] !in a && target[0] !in b
    requires 0 < k < |target| && k <= |b| && b[k - 1] != target[k]
    ensures ReplaceAll(a + ([target[0]] + (b + target)), target, replacement) == a + ([target[0]] + (b + replacement))
  {
    ReplaceAllSkip(a, [target[0]] + (b + target), target, replacement);
    assert (b + target)[k - 1] == b[k - 1];
    ReplaceAllMismatch(target[0], b + target, target, replacement, k);
    ReplaceAllLast(b, target, replacement);
  }

  /** Concatenation regrouped to the left. */
  lemma Regroup(a: string, b: string, c: string, d: string, e: string, f: string)
    ensures a + (b + ((c + d + e) + f)) == a + b + c + d + e + f
  {
  }

  /**
   A string whose first character does not start an occurrence keeps that
   character: the following characters part from the target at index `k`.
   */
  lemma ReplaceAllMismatch(c: char, b: string, target: string, replacement: string, k: nat)
    requires 0 < k < |target| && k <= |b| && b[k - 1] != target[k]
    ensures ReplaceAll([c] + b, target, replacement) == [c] + ReplaceAll(b, target, replacement)
  {
    var s := [c] + b;
    if |s| >= |target| {
      assert s[..|target|][k] == b[k - 1];
      assert s[1..] == b;
    }
  }

  /** A string that starts with the target begins with the replacement. */
  lemma ReplaceAllHead(t: string, b: string, replacement: string)
    requires |t| > 0
    ensures ReplaceAll(t + b, t, replacement) == replacement + ReplaceAll(b, t, replacement)
  {
    assert (t + b)[..|t|] == t;
    assert (t + b)[|t|..] == b;
  }

  /**
   A string ending in the target, with no earlier occurrence, has just that
   one occurrence replaced. (The target's first character appears nowhere
   else in it, so no occurrence can straddle the boundary.)
   */
  lemma {:induction false} ReplaceAllSuffix(prefix: string, target: string, replacement: string)
    requires |target| > 0
    requires forall k :: 0 < k < |target| ==> target[k] != target[0]
    requires !Occurs(prefix, target)
    ensures ReplaceAll(prefix + target, target, replacement) == prefix + replacement
    decreases |prefix|
  {
    var s := prefix + target;
    if |prefix| == 0 {
      assert s == target + [];
      ReplaceAllHead(target, [], replacement);
    } else {
      assert s[..|target|] != target by {
        if |prefix| >= |target| {
          assert !OccursAt(prefix, target, 0);
          assert s[..|target|] == prefix[..|target|];
        } else {
          var k := |prefix|;
          assert s[..|target|][k] == s[k] == target[0] != target[k];
        }
      }
      assert ReplaceAll(s, target, replacement) == [s[0]] + ReplaceAll(s[1..], target, replacement);
      OccursTail(prefix, target);
      assert s[1..] == prefix[1..] + target;
      ReplaceAllSuffix(prefix[1..], target, replacement);
      assert prefix == [prefix[0]] + prefix[1..];
    }
  }

  /**
   The pieces of `s` between occurrences of `c`, as many as there are
   separators plus one (no trailing piece is dropped).
   */
  function SplitOn(s: string, c: char): (parts: seq<string>)
    ensures |parts| >= 1
    ensures forall k :: 0 <= k < |parts| ==> c !in parts[k]
    decreases |s|
  {
    if |s| == 0 then [""]
    else
      var rest := SplitOn(s[1..], c);
      if s[0] == c then [""] + rest
      else [[s[0]] + rest[0]] + rest[1..]
  }

  /** Glue the pieces back together with `c` between neighbours. */
  function Join(parts: seq<string>, c: char): string
    requires |parts| >= 1
    decreases |parts|
  {
    if |parts| == 1 then parts[0] else parts[0] + [c] + Join(parts[1..], c)
  }

  /** Joining peels off the first piece. */
  lemma JoinCons(parts: seq<string>, c: char)
    requires |parts| >= 2
    ensures Join(parts, c) == parts[0] + [c] + Join(parts[1..], c)
  {
  }

  /** A string without the separator is a single piece. */
  lemma {:induction false} SplitOnNoSeparator(s: string, c: char)
    requires c !in s
    ensures SplitOn(s, c) == [s]
    decreases |s|
  {
    if |s| > 0 {
      SplitOnNoSeparator(s[1..], c);
      assert s == [s[0]] + s[1..];
    }
  }

  /** Splitting at a separator concatenates the pieces of both sides. */
  lemma {:induction false} SplitOnConcat(a: string, b: string, c: char)
    ensures SplitOn(a + [c] + b, c) == SplitOn(a, c) + SplitOn(b, c)
    decreases |a|
  {
    var s := a + [c] + b;
    if |a| == 0 {
      assert s == [c] + b;
      assert s[1..] == b;
    } else {
      assert s[0] == a[0];
      assert s[1..] == a[1..] + [c] + b;
      SplitOnConcat(a[1..], b, c);
    }
  }

  /** Joining the pieces of a split gives the string back. */
  lemma {:induction false} JoinSplit(s: string, c: char)
    ensures Join(SplitOn(s, c), c) == s
    decreases |s|
  {
    if |s| > 0 {
      var rest := SplitOn(s[1..], c);
      JoinSplit(s[1..], c);
      if s[0] != c {
        var parts := SplitOn(s, c);
        assert parts[1..] == rest[1..];
        if |rest| > 1 {
          assert rest == [rest[0]] + rest[1..];
          assert Join(rest, c) == rest[0] + [c] + Join(rest[1..], c);
        }
      }
      assert s == [s[0]] + s[1..];
    }
  }

  /** Splitting the join of separator-free pieces gives the pieces back. */
  lemma {:induction false} SplitJoin(parts: seq<string>, c: char)
    requires |parts| >= 1
    requires forall k :: 0 <= k < |parts| ==> c !in parts[k]
    ensures SplitOn(Join(parts, c), c) == parts
    decreases |parts|
  {
    SplitOnNoSeparator(parts[0], c);
    if |parts| > 1 {
      SplitJoin(parts[1..], c);
      SplitOnConcat(parts[0], Join(parts[1..], c), c);
      assert parts == [parts[0]] + parts[1..];
    }
  }

  /** The last piece of a split is the text after the last separator. */
  lemma {:induction false} LastPieceSuffix(s: string, c: char)
    ensures var p := SplitOn(s, c); var last := p[|p| - 1];
      && |last| <= |s| && s[|s| - |last|..] == last
      && (|last| < |s| ==> s[|s| - |last| - 1] == c)
    decreases |s|
  {
    var p := SplitOn(s, c);
    if |s| == 0 {
      assert p == [""];
    } else {
      var t := s[1..];
      var rest := SplitOn(t, c);
      LastPieceSuffix(t, c);
      var last := rest[|rest| - 1];
      if s[0] != c && |rest| == 1 {
        // the single piece of t has no separator, so the last piece is all of s
        JoinSplit(t, c);
        assert p == [[s[0]] + t];
        assert p[|p| - 1] == s;
      } else {
        LastPieceOfLonger(s, c);
        assert p[|p| - 1] == last;
        assert s[|s| - |last|..] == t[|t| - |last|..];
        if |last| < |t| {
          assert s[|s| - |last| - 1] == t[|t| - |last| - 1];
        } else {
          // last == t is separator-free, so t splits into one piece: s[0] is the separator
          SplitOnNoSeparator(t, c);
        }
      }
    }
  }

  /** Unless the first character joins a lone piece, the last piece comes from the tail. */
  lemma LastPieceOfLonger(s: string, c: char)
    requires |s| > 0
    requires s[0] == c || |SplitOn(s[1..], c)| > 1
    ensures var p := SplitOn(s, c); var rest := SplitOn(s[1..], c);
      p[|p| - 1] == rest[|rest| - 1]
  {
  }

  /** The last piece of a split is empty exactly when the string ends with the separator. */
  lemma {:induction false} LastPieceEmpty(s: string, c: char)
    ensures var p := SplitOn(s, c); p[|p| - 1] == "" <==> (|s| == 0 || s[|s| - 1] == c)
    decreases |s|
  {
    if |s| > 0 {
      LastPieceEmpty(s[1..], c);
    }
  }

  /** `parts` with its trailing empty strings removed. */
  function DropTrailingEmpty(parts: seq<string>): (r: seq<string>)
    ensures |r| <= |parts| && r == parts[..|r|]
    ensures |r| > 0 ==> r[|r| - 1] != ""
    ensures forall k :: |r| <= k < |parts| ==> parts[k] == ""
    decreases |parts|
  {
    if |parts| == 0 then []
    else if parts[|parts| - 1] == "" then DropTrailingEmpty(parts[..|parts| - 1])
    else parts
  }

  /**
   Java's `s.split(String.valueOf(c))` for a separator that is not a regex
   metacharacter: the string itself when the separator does not occur,
   otherwise the pieces with trailing empty strings removed.
   */
  function JavaSplit(s: string, c: char): (parts: seq<string>)
    ensures forall k :: 0 <= k < |parts| ==> c !in parts[k]
    ensures |parts| > 0 && parts[|parts| - 1] == "" ==> s == ""
  {
    if c !in s then [s] else DropTrailingEmpty(SplitOn(s, c))
  }

  /** A string that does not end in the separator is re-assembled by joining its Java split. */
  lemma JavaSplitRejoin(s: string, c: char)
    requires |s| == 0 || s[|s| - 1] != c
    ensures |JavaSplit(s, c)| >= 1
    ensures Join(JavaSplit(s, c), c) == s
  {
    LastPieceEmpty(s, c);
    JoinSplit(s, c);
  }

  /** Java-splitting the join of separator-free pieces, the last non-empty, returns the pieces. */
  lemma JavaSplitJoin(parts: seq<string>, c: char)
    requires |parts| >= 1
    requires forall k :: 0 <= k < |parts| ==> c !in parts[k]
    requires parts[|parts| - 1] != ""
    ensures JavaSplit(Join(parts, c), c) == parts
  {
    SplitJoin(parts, c);
    if c !in Join(parts, c) {
      SplitOnNoSeparator(Join(parts, c), c);
    }
  }
}

=== FILE: transform.dfy ===
/**
 The transform step, `processFile`: derive the frames directory and the
 archive path from the input file's name, run ffmpeg to extract the frames,
 and pack the frames directory into the archive.
 */
module Transform {
  import opened Results
  import opened Strings
  import opened Paths
  import opened Archive
  import opened Effects

  /** What became of the ffmpeg process: it could not be started or awaited, or it exited. */
  datatype ExecOutcome = NotStarted | Exited(code: int)

  /**
   Everything the step learns from outside: the working directory that
   relative paths resolve against, whether `createDirectories` succeeds,
   the process outcome, and what the archive step finds.
   */
  datatype TransformEnv = TransformEnv(cwd: Path, mkdirsOk: bool, exec: ExecOutcome, archive: ArchiveEnv)

  datatype TransformRun = TransformRun(effects: seq<Effect>, result: Result<Zipped>)

  const FfmpegFailed := "FFmpeg failed"

  /** The input's file name with every ".mp4" removed. */
  function BaseName(fileName: string): (base: string)
    requires '/' !in fileName
    ensures '/' !in base
  {
    ReplaceAllKeepsOut(fileName, ".mp4", "", '/');
    ReplaceAll(fileName, ".mp4", "")
  }

  /** A name without ".mp4" is its own base name. */
  lemma BaseNameOfPlainName(fileName: string)
    requires '/' !in fileName && !Occurs(fileName, ".mp4")
    ensures BaseName(fileName) == fileName
  {
    ReplaceAllAbsent(fileName, ".mp4", "");
  }

  /** A video `stem.mp4` whose stem holds no ".mp4" has the stem as base name. */
  lemma BaseNameOfVideo(stem: string)
    requires '/' !in stem && !Occurs(stem, ".mp4")
    ensures BaseName(stem + ".mp4") == stem
  {
    assert forall k :: 0 < k < |".mp4"| ==> ".mp4"[k] != ".mp4"[0];
    ReplaceAllSuffix(stem, ".mp4", "");
    assert stem + "" == stem;
  }

  /**
   The removal is a single pass: removing ".mp4" from the middle of
   "a.m.mp4p4" joins the pieces around it into a new ".mp4", which stays.
   */
  lemma BaseNameSinglePass()
    ensures BaseName("a.m.mp4p4") == "a.mp4"
  {
    var t := ".mp4";
    assert "a.m.mp4p4" == "a" + ("." + ("m" + (t + "p4")));
    assert "a.mp4" == "a" + ("." + ("m" + ("" + "p4")));
    ReplaceAllSkip("a", "." + ("m" + (t + "p4")), t, "");
    ReplaceAllMismatch('.', "m" + (t + "p4"), t, "", 2);
    ReplaceAllSkip("m", t + "p4", t, "");
    ReplaceAllHead(t, "p4", "");
    assert ReplaceAll("p4", t, "") == "p4";
  }

  /** Where ffmpeg writes the frames. */
  function FramesDir(base: string): (dir: Path)
    requires '/' !in base
    ensures dir == "/tmp/" + base + "_frames"
    ensures IsAbsolute(dir) && FileName(dir) == Some(base + "_frames")
  {
    Resolve(Tmp, base + "_frames")
  }

  /** Where the archive is written: always the frames directory plus ".zip". */
  function ZipPath(base: string): (zip: Path)
    requires '/' !in base
    ensures zip == FramesDir(base) + ".zip" == "/tmp/" + base + "_frames.zip"
    ensures IsAbsolute(zip) && FileName(zip) == Some(base + "_frames.zip")
  {
    Resolve(Tmp, base + "_frames.zip")
  }

  /** The frame file pattern ffmpeg is given. */
  function FramePattern(framesDir: Path): string {
    framesDir + "/frame_%03d.jpg"
  }

  /**
   The ffmpeg command line, as one string: the four intended arguments
   joined by single spaces, never ending in a space.
   */
  function Command(input: Path, framesDir: Path): (cmd: string)
    ensures cmd == Join(["ffmpeg", "-i", input, FramePattern(framesDir)], ' ')
    ensures |cmd| > 0 && cmd[|cmd| - 1] != ' '
  {
    var parts := ["ffmpeg", "-i", input, FramePattern(framesDir)];
    JoinCons(parts, ' ');
    JoinCons(parts[1..], ' ');
    JoinCons(parts[2..], ' ');
    "ffmpeg -i " + input + " " + framesDir + "/frame_%03d.jpg"
  }

  /**
   The process arguments: the command split on single spaces, as Java's
   `split(" ")` does; no argument holds a space.
   */
  function Argv(input: Path, framesDir: Path): (argv: seq<string>)
    ensures forall k :: 0 <= k < |argv| ==> ' ' !in argv[k]
  {
    JavaSplit(Command(input, framesDir), ' ')
  }

  /** The three effects of a run that goes all the way, in order. */
  function Planned(base: string, input: Path): seq<Effect>
    requires '/' !in base
  {
    [MakeDirs(FramesDir(base)), Exec(Argv(input, FramesDir(base))), Zip(FramesDir(base), ZipPath(base))]
  }

  /**
   `processFile(file)`. A file name that cannot be taken, or a failing
   `createDirectories`, fails before ffmpeg runs; a process that cannot be
   started or exits non-zero fails before the archive is built; otherwise
   the archive step decides.
   */
  function ProcessFile(file: Path, env: TransformEnv): (run: TransformRun)
    ensures FileName(file).None? ==> run == TransformRun([], Err(InvalidPath))
    ensures FileName(file).Some? ==>
      && 1 <= |run.effects| <= 3
      && run.effects == Planned(BaseName(FileName(file).value), ToAbsolute(file, env.cwd))[..|run.effects|]
    ensures run.result.Ok? ==>
      && FileName(file).Some?
      && run.result.value.path == ZipPath(BaseName(FileName(file).value))
      && env.mkdirsOk && env.exec == Exited(0) && |run.effects| == 3
  {
    match FileName(file)
    case None => TransformRun([], Err(InvalidPath))
    case Some(name) =>
      var base := BaseName(name);
      var framesDir, zipPath := FramesDir(base), ZipPath(base);
      var plan := Planned(base, ToAbsolute(file, env.cwd));
      if !env.mkdirsOk then TransformRun(plan[..1], Err(IoFailure))
      else
        match env.exec
        case NotStarted => TransformRun(plan[..2], Err(ProcessFailure))
        case Exited(code) =>
          if code != 0 then TransformRun(plan[..2], Err(Business(FfmpegFailed)))
          else TransformRun(plan, ZipDirectory(framesDir, zipPath, env.archive))
  }

  /**
   The gates of the step: a failed `createDirectories` stops before ffmpeg;
   a process that cannot be started, or exits non-zero ("FFmpeg failed"),
   stops before the archive; only exit code 0 reaches the archive step,
   whose result is the step's.
   */
  lemma ProcessFileGates(file: Path, env: TransformEnv)
    requires FileName(file).Some?
    ensures var run := ProcessFile(file, env);
      var base := BaseName(FileName(file).value);
      && (!env.mkdirsOk ==> |run.effects| == 1 && run.result == Err(IoFailure))
      && (env.mkdirsOk && env.exec.NotStarted? ==> |run.effects| == 2 && run.result == Err(ProcessFailure))
      && (env.mkdirsOk && env.exec.Exited? && env.exec.code != 0 ==>
            |run.effects| == 2 && run.result == Err(Business(FfmpegFailed)))
      && (env.mkdirsOk && env.exec == Exited(0) ==>
            |run.effects| == 3 && run.result == ZipDirectory(FramesDir(base), ZipPath(base), env.archive))
  {
  }

  /**
   When neither the input path nor the frames directory contains a space,
   ffmpeg receives exactly four arguments.
   */
  lemma ArgvWithoutSpaces(input: Path, framesDir: Path)
    requires ' ' !in input && ' ' !in framesDir
    ensures Argv(input, framesDir) == ["ffmpeg", "-i", input, FramePattern(framesDir)]
  {
    var p := FramePattern(framesDir);
    var parts := ["ffmpeg", "-i", input, p];
    assert forall k :: 0 <= k < |parts| ==> ' ' !in parts[k] by {
      assert ' ' !in p;
      assert parts[2] == input && parts[3] == p;
    }
    assert p[|p| - 1] == 'g';
    JavaSplitJoin(parts, ' ');
  }

  /** Whatever the paths hold, the arguments re-joined with spaces give back the command. */
  lemma ArgvRejoins(input: Path, framesDir: Path)
    ensures |Argv(input, framesDir)| >= 1
    ensures Join(Argv(input, framesDir), ' ') == Command(input, framesDir)
  {
    JavaSplitRejoin(Command(input, framesDir), ' ');
  }

  /**
   A space in the downloaded file's name, which then also appears in the
   frames directory, splits both paths into two arguments each.
   */
  lemma SpaceSplitsPaths(a: string, b: string, c: string, d: string)
    requires ' ' !in a && ' ' !in b && ' ' !in c && ' ' !in d
    ensures Argv(a + " " + b, c + " " + d) == ["ffmpeg", "-i", a, b, c, FramePattern(d)]
  {
    var p := FramePattern(d);
    var parts := ["ffmpeg", "-i", a, b, c, p];
    assert ' ' !in p;
    var tail := Join(parts[2..], ' ');
    assert tail == a + " " + b + " " + c + " " + p by {
      JoinCons(parts[2..], ' ');
      JoinCons(parts[3..], ' ');
      JoinCons(parts[4..], ' ');
    }
    assert Join(parts, ' ') == "ffmpeg" + " " + ("-i" + " " + tail) by {
      JoinCons(parts, ' ');
      JoinCons(parts[1..], ' ');
    }
    assert Command(a + " " + b, c + " " + d) == "ffmpeg" + " " + ("-i" + " " + tail);
    assert forall k :: 0 <= k < |parts| ==> ' ' !in parts[k] by {
      assert parts[2] == a && parts[3] == b && parts[4] == c && parts[5] == p;
    }
    assert p[|p| - 1] == 'g';
    JavaSplitJoin(parts, ' ');
  }
}
